=== FILE: README.md ===
# UNetUnconditionalModel channel bookkeeping, in Dafny

This project models the shape logic of `UNetUnconditionalModel` in
`src/diffusers/models/unet_unconditional.py`. It covers:

- the block graph that `__init__` builds from `block_channels`. This is
  the width, layer count and resample flag of every down block, the
  middle block, every up block and the output head. It also covers the
  timestep-embedding widths.
- the forward pass's skip tuple. Every down block appends its
  `res_samples`, and every up block slices `len(resnets)` entries off the
  end. Timestep normalisation is covered too.
- the three legacy builders the constructor can delegate to:
  - `init_for_sde` with its `hs_c` stack and its input-pyramid `Combine`
    modules;
  - `init_for_ldm` with its `input_block_chans` stack and its `ds` factor;
  - `init_for_ddpm`, which writes every skip width down from
    `in_ch_mult`.
- the `Combine` module's forward pass.

Tensors are reduced to their shapes, or are opaque values. Modules are
reduced to the widths they read and write. The timestep projection
`time_steps` is the exception: it is recorded by its constructor
arguments. Python exceptions become
`Err(...)` values of a `Result` type:
- `IndexError` for an empty list's `pop()` or an index past the end;
- `UnboundLocalError` for a local that a loop never bound;
- `AssertionError` for a failed `assert`;
- `ValueError` and `ZeroDivisionError`;
- `ShapeError` for torch's rejection of operand shapes: a convolution fed the wrong number of channels, or a `+` whose shapes do not broadcast (`Combine.Conv`, `Combine.Broadcast`, `Combine.Forward`);
- `LongRangeError` for `torch.tensor([t], dtype=torch.long)` on a Python int outside the 64-bit signed range (`Timesteps.Normalize`).

The `TypeError` and `AttributeError` that `None`-valued arguments raise are not modelled; see "Left out".

The properties proved are:
- the skip stacks balance;
- no pop underflows;
- each concatenation reads the width that was pushed for it;
- the up path mirrors the down path, level by level;
- with at least one level and at least one residual block per level, the
  three builders agree on the up path whenever the SDE combiner does not
  double widths. When it does, they differ exactly at the blocks that read
  a downsampler's entry. Without residual blocks the LDM and DDPM builders
  disagree.

Modules, one per file:
- `Errors`: the `Result`/`Option` types and the exception kinds.
- `Seqs`: `Repeat`, `Reverse`, `Sum` and `Flatten`, with their lemmas.
- `Combine`: `Combine` and torch broadcasting.
- `Timesteps`: timestep normalisation.
- `LegacyConfig`: the multipliers derived for the legacy builders.
- `Schedule`: the block graph of `__init__`.
- `SkipBuffer`: the forward skip tuple.
- `Network`: the graph and the tuple together.
- `SkipStack`: the push/pop model the legacy builders share.
- `SdeBuilder`, `LdmBuilder`, `DdpmBuilder`: the three legacy builders.
- `Agreement`: the cross-builder results.

## Model

| member | source | states |
|---|---|---|
| Combine.Conv | src/diffusers/models/unet_unconditional.py:24-28 | `Conv_0` accepts exactly `dim1` input channels, emits `dim2`, and keeps batch and spatial size |
| Combine.Broadcast | src/diffusers/models/unet_unconditional.py:31-32 | `h + y` is defined iff every dimension pair is equal or has a 1; equal shapes give that shape; otherwise a shape error |
| Combine.Forward | src/diffusers/models/unet_unconditional.py:27-34 | a wrong input width fails in the convolution before the method is looked at; an unknown method raises `ValueError`; "cat" succeeds iff the non-channel dimensions agree, and then yields `dim2 + y.channels` channels; "sum" of matching shapes yields `y`'s shape |
| Combine.AsciiLower | src/diffusers/models/unet_unconditional.py:864 | `progressive_combine.lower()` keeps the length and lowers exactly the ASCII capitals |
| Combine.WidthAfterCombineMatchesForward | src/diffusers/models/unet_unconditional.py:951-954 | the builder's rule (double `in_ch` for "cat", keep it for "sum") is the width `Combine.forward` actually produces for the tensors the combiner is meant for |
| Combine.UnknownMethodFailsOnlyAtForward | src/diffusers/models/unet_unconditional.py:21-34 | an unrecognised method is accepted at construction, leaves the builder's width unchanged, and raises `ValueError` only in `forward` |
| Timesteps.TruncateTowardZero | src/diffusers/models/unet_unconditional.py:381 | converting a float to `torch.long` truncates toward zero: the result lies within 1 of the input, on the zero side |
| Timesteps.Normalize | src/diffusers/models/unet_unconditional.py:379-383 | an int becomes a one-element long tensor (and fails outside the 64-bit range); a float becomes its truncation; a 0-dim tensor gains a leading axis of 1; any other tensor passes unchanged |
| Timesteps.NormalizeGivesBatch | src/diffusers/models/unet_unconditional.py:379-383 | every normalised timestep has a batch dimension and stays well formed; a scalar or 0-dim input becomes a batch of exactly one |
| Timesteps.NormalizeIdempotent | src/diffusers/models/unet_unconditional.py:379-383 | normalising a normalised timestep changes nothing |
| LegacyConfig.LegacyMult | src/diffusers/models/unet_unconditional.py:303-304 | `[x // block_channels[0] ...]` raises on an empty list or a zero base; otherwise each multiplier is the floor quotient (`b0*m <= x < b0*(m+1)`) and the first is 1 |
| LegacyConfig.LegacyWidthsExact | src/diffusers/models/unet_unconditional.py:329-330 | the multipliers rebuild `block_channels` exactly iff every width is a multiple of the first |
| Schedule.ApplySde | src/diffusers/models/unet_unconditional.py:179-192 | with `sde`, widths become `nf * m`, input and output widths become `num_channels`, the embedding becomes Fourier with no activation, and the four fixed down-block tags replace the given ones |
| Schedule.Scale | src/diffusers/models/unet_unconditional.py:181 | `[nf * x for x in ch_mult]`, element by element |
| Schedule.TimestepInputDim | src/diffusers/models/unet_unconditional.py:205-212 | Fourier embeddings feed `2 * block_channels[0]`, positional ones feed `block_channels[0]`, and any other type leaves `timestep_input_dim` unbound |
| Schedule.DownFrom | src/diffusers/models/unet_unconditional.py:219-237 | the down loop succeeds iff there are no more tags than widths; block `i` reads the previous width (level 0 reads its own), writes `block_channels[i]`, has `num_res_blocks` layers, and downsamples unless it is the last level |
| Schedule.UpFrom | src/diffusers/models/unet_unconditional.py:262-284 | the up loop succeeds iff there are no more tags than widths; block `i` writes `rev[i]`, reads the skip width `rev[min(i+1, L-1)]`, follows `rev[i-1]`, has one more layer, and upsamples unless it is the last |
| Schedule.Build | src/diffusers/models/unet_unconditional.py:197-289 | leaving GroupNorm's divisibility check aside, the graph builds iff the width list is non-empty, the embedding type is known, and neither tag list outruns the widths; an empty list raises `IndexError`, an unknown type `UnboundLocalError`; a built graph satisfies the whole closed-form schedule |
| Schedule.TimeStepsFeedEmbedding | src/diffusers/models/unet_unconditional.py:205-212 | `linear_1` reads what `time_steps` writes iff the embedding is positional, or it is Fourier and `nf == block_channels[0]` |
| Schedule.DownPathChains | src/diffusers/models/unet_unconditional.py:202-248 | `conv_in` feeds the first down block, and each down block reads what the previous one writes; with as many down tags as widths, the last writes what the middle block reads |
| Schedule.ShortDownPath | src/diffusers/models/unet_unconditional.py:219-248 | with fewer down tags than widths the graph still builds; its last down block downsamples and writes the width of its own level, which equals the width the middle block reads iff the two levels' widths are equal |
| Schedule.UpPathChains | src/diffusers/models/unet_unconditional.py:262-289 | the first up block follows the middle block, and each up block follows the previous one; with as many up tags as widths, the last writes the width the output norm and `conv_out` read |
| Schedule.UpMirrorsDown | src/diffusers/models/unet_unconditional.py:219-284 | with one block of each kind per level, up block `i` writes and reads the widths of down block `L-1-i` and has one more layer |
| Schedule.UpSpecMirrors | src/diffusers/models/unet_unconditional.py:219-284 | with as many tags of each kind as widths, the schedule's up block `i` and down block `L-1-i` write the same width, read the same width, and the up block has one more layer |
| Schedule.ResampleBalance | src/diffusers/models/unet_unconditional.py:223-278 | `L-1` down blocks downsample and `L-1` up blocks upsample, so resolution comes back to where it started |
| SkipBuffer.SliceBound | src/diffusers/models/unet_unconditional.py:415-416 | Python slice-bound normalisation: negative bounds count from the end, and out-of-range bounds clamp |
| SkipBuffer.PopBatch | src/diffusers/models/unet_unconditional.py:415-416 | the taken part and the kept part always reassemble the tuple; `0 < n <= len` takes the last `n`; `n == 0` takes everything (since `-0 == 0`); too large an `n` takes what is left |
| SkipBuffer.DownFold | src/diffusers/models/unet_unconditional.py:396-403 | `down_block_res_samples += res_samples` over all blocks appends every emission in order |
| SkipBuffer.DownPass | src/diffusers/models/unet_unconditional.py:395-403 | the tuple after the down loop starts with the `conv_in` output, is followed by all emissions, and has `1 + sum` entries |
| SkipBuffer.UpPass | src/diffusers/models/unet_unconditional.py:412-418 | one batch per up block; the leftover followed by the batches in reverse is the original tuple, so nothing is lost, duplicated or reordered |
| SkipBuffer.UpPassTakesSlices | src/diffusers/models/unet_unconditional.py:412-418 | when every block takes at least one entry and the total fits, block `j` receives exactly the slice just below what blocks `0..j-1` took, and the untouched bottom remains |
| SkipBuffer.DrainsExactlyWhenBalanced | src/diffusers/models/unet_unconditional.py:412-418 | the tuple ends empty with every block served in full iff the blocks take exactly as many entries as the tuple holds |
| SkipBuffer.ForwardBalanced | src/diffusers/models/unet_unconditional.py:395-418 | with balanced counts, the forward skip traffic leaves nothing over, each up block gets its own batch of its own size, and the `conv_in` output reaches the outermost up block first |
| Network.BlockCounts | src/diffusers/models/unet_unconditional.py:219-284 | a built graph's down blocks have `num_res_blocks` layers and downsample except at the last level; its up blocks have `num_res_blocks + 1` layers |
| Network.SkipCountsBalance | src/diffusers/models/unet_unconditional.py:395-418 | with as many down and up tags as widths, the down pass leaves `1 + L*R + (L-1)` tensors and the up blocks take `L*(R+1)`, which is the same number |
| Network.ForwardDrainsSkipBuffer | src/diffusers/models/unet_unconditional.py:395-418 | for a graph `__init__` builds with as many down and up tags as widths, a forward call drains the skip tuple exactly: every up block receives `len(resnets)` tensors, and the `conv_in` output goes to the outermost block |
| Network.SdeNeedsFourLevels | src/diffusers/models/unet_unconditional.py:187-222 | with `sde`, the four forced down tags over fewer than four widths index past `block_channels` and raise `IndexError` |
| Network.SdeManyLevelsBuild | src/diffusers/models/unet_unconditional.py:179-248 | with `sde` and more than four levels (and no more up tags than levels), the graph builds with four down blocks; the last writes `nf * ch_mult[3]` while the middle block reads `nf * ch_mult[L-1]` |
| Network.ShortTagCounts | src/diffusers/models/unet_unconditional.py:219-284 | with as many down as up tags but fewer than widths, every down block downsamples, so each emits `R+1` skip tensors, and each up block takes `R+1` |
| Network.ShortTagsLeaveConvIn | src/diffusers/models/unet_unconditional.py:395-418 | for such a graph, a forward call leaves exactly the `conv_in` output in the skip tuple |
| Network.LeavesFirst | src/diffusers/models/unet_unconditional.py:410-413 | up blocks that together take one tensor fewer than the tuple holds leave exactly its first entry |
| Network.SdeManyLevelsLeaveConvIn | src/diffusers/models/unet_unconditional.py:179-418 | with `sde`, more than four levels and four up tags, a forward call leaves the `conv_in` output in the skip tuple |
| Network.SdeTimeStepsFeedEmbedding | src/diffusers/models/unet_unconditional.py:179-212 | under `sde`, the Fourier projection of `nf` feeds `linear_1` the width it is built for iff `ch_mult[0] == 1` or `nf == 0` |
| SkipStack.PushesLength | src/diffusers/models/unet_unconditional.py:910-960 | the stack receives `1 + L*R + (L-1)` widths, which is `L*(R+1)` |
| SkipStack.LastPush | src/diffusers/models/unet_unconditional.py:929-933 | with residual blocks, the last push is the deepest level's width |
| SkipStack.UpOutsShape | src/diffusers/models/unet_unconditional.py:1002-1018 | the up path has `L*(R+1)` residual blocks, and the last writes `nf * ch_mult[0]` |
| SkipStack.MirrorFrom | src/diffusers/models/unet_unconditional.py:611-615 | levels `i..L-1` pushed and then popped in reverse, ending with level `i`'s entry width, are exactly the per-level skip widths the up levels `L-1..i` consume |
| SkipStack.PushesMirror | src/diffusers/models/unet_unconditional.py:1002-1005 | popping every push yields exactly the per-level skip widths, and there are as many as up residual blocks |
| SkipStack.UpSkipsFromAt | src/diffusers/models/unet_unconditional.py:611-615 | the `t`-th up block of down level `lv` reads the level's own width for `t < R` and the level's entry width for `t == R`, at position `(L-1-lv)*(R+1)+t` |
| SkipStack.DoubledEntries | src/diffusers/models/unet_unconditional.py:951-954 | doubling every downsampler's pushed width changes only the input width of the last up block of each non-outermost level, by `base * mult[lv-1]`; every output width stays |
| SkipStack.ChainBlocksMirror | src/diffusers/models/unet_unconditional.py:1003-1018 | building the up blocks from the popped stack or from the per-level widths gives the same blocks |
| SkipStack.ChainBlocks | src/diffusers/models/unet_unconditional.py:1003-1018 | up block `k` reads the running width (the start width, then the previous output) plus skip `k`, and writes `outs[k]` |
| SkipStack.PopChain | src/diffusers/models/unet_unconditional.py:1005 | popping once per up block succeeds iff the stack holds at least that many widths, and otherwise raises `IndexError` |
| SkipStack.PopChainPops | src/diffusers/models/unet_unconditional.py:780-794 | the pops leave the bottom of the stack, see the top entries from the top down, and chain the blocks through them |
| SkipStack.PushPopBalance | src/diffusers/models/unet_unconditional.py:1002-1062 | for every width schedule, pushes and pops number `L*(R+1)` each, and popping them all never underflows and leaves the stack empty |
| SkipStack.PopChainDrains | src/diffusers/models/unet_unconditional.py:1062 | popping exactly as many widths as were pushed empties the stack and sees the pushes in reverse |
| SdeBuilder.Factor | src/diffusers/models/unet_unconditional.py:951-954 | the combiner doubles the width exactly for "input_skip" with a lower-cased "cat" |
| SdeBuilder.AfterDownsample | src/diffusers/models/unet_unconditional.py:951-958 | after a downsampler the running width is multiplied by that factor |
| SdeBuilder.LevelResBlocks | src/diffusers/models/unet_unconditional.py:915-929 | a level's residual blocks all write the level's width; the first reads the running width, and the rest read the level's width |
| SdeBuilder.DownLevels | src/diffusers/models/unet_unconditional.py:912-960 | the down loop fails (with `UnboundLocalError`, because a downsampler reads `out_ch`) iff there are no residual blocks and a non-final level is reached with `out_ch` unbound; there are `L-1` downsamplers |
| SdeBuilder.DownLevelsPushes | src/diffusers/models/unet_unconditional.py:910-960 | with residual blocks, `hs_c` receives exactly the reference pushes, and `in_ch`, `out_ch` end at the deepest width |
| SdeBuilder.DownLevelsDownsamplers | src/diffusers/models/unet_unconditional.py:936-943 | the downsampler of level `k` reads `nf * ch_mult[k]` |
| SdeBuilder.DownLevelsCombiners | src/diffusers/models/unet_unconditional.py:951-952 | with "input_skip" there is one combiner per downsampler, mapping `num_channels` into the level's width; otherwise there are none |
| SdeBuilder.Build | src/diffusers/models/unet_unconditional.py:824-1068 | leaving GroupNorm's divisibility check aside, the builder succeeds iff the three option asserts hold and there is at least one level and one residual block; bad options raise `AssertionError` first; no levels or no residual blocks leave `out_ch` unbound |
| SdeBuilder.BuildShape | src/diffusers/models/unet_unconditional.py:869-1066 | embedding input `2*nf` (Fourier) or `nf`; MLP width `4*nf`; `conv_in` maps `num_channels` to `nf`; the middle block reads the deepest width; the output conv (absent for "output_skip") reads `nf * ch_mult[0]` |
| SdeBuilder.BuildStack | src/diffusers/models/unet_unconditional.py:910-1018 | `hs_c` holds exactly the reference pushes, and every up residual block reads the running width plus the pushes in reverse |
| SdeBuilder.UpBlocksPerLevel | src/diffusers/models/unet_unconditional.py:1002-1018 | up level `i` concatenates `nf * ch_mult[i]` for `R` blocks, and for its last block the width the level was entered with, doubled by a "cat" combiner |
| SdeBuilder.SkipStackDrains | src/diffusers/models/unet_unconditional.py:1002-1062 | `hs_c` gets `1 + L*R + (L-1)` widths and the up loop pops the same number: no pop meets an empty list, and `assert not hs_c` holds |
| SdeBuilder.MidReadsTopOfStack | src/diffusers/models/unet_unconditional.py:962-972 | `in_ch = hs_c[-1]` before the middle block changes nothing: the top of the stack is the width the down loop ends with |
| SdeBuilder.CombinersMatchForward | src/diffusers/models/unet_unconditional.py:951-954 | each built combiner maps the pyramid into the level's width, and its forward pass on matching tensors yields exactly the width the builder continues with |
| LdmBuilder.InputPushes | src/diffusers/models/unet_unconditional.py:690-736 | with residual blocks, `input_block_chans` receives the reference pushes and `ch` ends at the deepest width |
| LdmBuilder.InputPushesNoResBlocks | src/diffusers/models/unet_unconditional.py:690-736 | with no residual blocks, `ch` never changes and every downsampler pushes it |
| LdmBuilder.InputPushCount | src/diffusers/models/unet_unconditional.py:690-736 | the input loop pushes `L*R + (L-1)` widths after the input convolution's, whatever `R` is |
| LdmBuilder.InputDs | src/diffusers/models/unet_unconditional.py:692-735 | input level `k` is built with `ds == 2^k`, and the loop ends at `2^(L-1)` |
| LdmBuilder.OutputDsHalves | src/diffusers/models/unet_unconditional.py:811-814 | starting from `2^j`, the output loop builds level `i` with `ds == 2^i` and returns to 1 |
| LdmBuilder.Build | src/diffusers/models/unet_unconditional.py:639-822 | for every configuration, the output loop's `pop()`s never meet an empty list |
| LdmBuilder.StackBalance | src/diffusers/models/unet_unconditional.py:690-782 | `input_block_chans` receives `1 + L*R + (L-1)` widths (1 with no levels), and the output loop pops `L*(R+1)` |
| LdmBuilder.StackEmpties | src/diffusers/models/unet_unconditional.py:780-782 | the stack ends empty iff there is at least one level |
| LdmBuilder.BuildWidths | src/diffusers/models/unet_unconditional.py:690-794 | with residual blocks, the stack holds the reference pushes; the middle block reads the deepest width; every output block reads `ch` plus the popped width, which is the per-level width; the last block writes `model_channels * channel_mult[0]` |
| LdmBuilder.OutputHeadMatches | src/diffusers/models/unet_unconditional.py:816-822 | the output head is sized for `model_channels`, and it matches the last block's width iff `channel_mult[0] == 1` (or the base is 0) |
| LdmBuilder.NoResBlocksWidths | src/diffusers/models/unet_unconditional.py:690-794 | with no residual blocks, `ch` stays `model_channels`: the middle block reads it, and the first output block reads twice it |
| LdmBuilder.AttentionMirror | src/diffusers/models/unet_unconditional.py:692-814 | output level `i` is built with the same `ds == 2^i` as input level `i`, so attention sits at the same levels on both paths, and `ds` returns to 1 |
| DdpmBuilder.InChMult | src/diffusers/models/unet_unconditional.py:568 | `in_ch_mult = (1,) + ch_mult` |
| DdpmBuilder.LevelBlocks | src/diffusers/models/unet_unconditional.py:573-581 | a level's first block reads `ch * in_ch_mult[level]`, the others read `ch * ch_mult[level]`, and all write `ch * ch_mult[level]` |
| DdpmBuilder.DownCount | src/diffusers/models/unet_unconditional.py:570-590 | the down path has `R` residual blocks per level |
| DdpmBuilder.DownChains | src/diffusers/models/unet_unconditional.py:570-596 | with residual blocks, the down path is one chain from `ch` to `ch * ch_mult[L-1]`, the width the middle block reads |
| DdpmBuilder.DownResamplers | src/diffusers/models/unet_unconditional.py:587-588 | the downsampler of level `k` reads `ch * ch_mult[k]` |
| DdpmBuilder.DownEndsWithoutResBlocks | src/diffusers/models/unet_unconditional.py:569-589 | with no residual blocks, `block_in` ends at `ch * in_ch_mult[L-1]`, since every level resets it |
| DdpmBuilder.BuildWithoutResBlocks | src/diffusers/models/unet_unconditional.py:566-624 | with no residual blocks and at least one level, the build succeeds; the middle block reads `ch * in_ch_mult[L-1]` and the first up block reads twice that |
| DdpmBuilder.SkipInIsUpSkips | src/diffusers/models/unet_unconditional.py:611-615 | level by level, the hard-coded `skip_in` widths are the mirrored widths `SkipStack` writes per level: `ch * ch_mult[i]` for the first `R` blocks and the entry width `ch * in_ch_mult[i]` for the last |
| DdpmBuilder.SkipInIsReversedPushes | src/diffusers/models/unet_unconditional.py:566-615 | with at least one level, the hard-coded `skip_in` widths of all up blocks are the reversed push sequence: what a stack hands back after the input convolution's width and every level's residual-block and downsampler widths are pushed in order, as `hs_c` and `input_block_chans` are filled |
| DdpmBuilder.Build | src/diffusers/models/unet_unconditional.py:536-637 | leaving GroupNorm's divisibility check aside, the builder succeeds iff there is at least one level; otherwise `block_in` is unbound at the middle block |
| DdpmBuilder.BuildWidths | src/diffusers/models/unet_unconditional.py:592-637 | with at least one level and residual blocks, the build succeeds; its up blocks read exactly what popping the reference pushes would give them; the middle block reads the deepest width; the output head reads `ch * ch_mult[0]` |
| Agreement.DdpmUpPath | src/diffusers/models/unet_unconditional.py:606-624 | with at least one level and residual blocks, the DDPM build succeeds and its up path is a chain through the reversed reference pushes |
| Agreement.LdmMatchesDdpm | src/diffusers/models/unet_unconditional.py:779-794 | given the same widths, at least one level and at least one residual block, the DDPM build succeeds and the LDM output blocks are its up blocks, with the same middle and final widths |
| Agreement.SdeMatchesDdpm | src/diffusers/models/unet_unconditional.py:1002-1018 | given the same widths and no doubling combiner, the DDPM build succeeds and the SDE up blocks are its up blocks, with the same middle and final widths |
| Agreement.SdeCatDoublesEntryWidths | src/diffusers/models/unet_unconditional.py:951-1018 | for a built SDE network with "input_skip" and "cat", the DDPM build with the same widths succeeds and has as many up blocks. The `t`-th up block of every down level has the same output width in both. It reads `nf * ch_mult[lv-1]` more in the SDE network when it is the last block of a level other than the outermost, and the same width otherwise |
| Agreement.LdmDdpmDifferWithoutResBlocks | src/diffusers/models/unet_unconditional.py:566-736 | with no residual blocks and at least two levels, the DDPM build succeeds. The LDM middle block reads `model_channels` and the DDPM one reads `ch * ch_mult[L-2]`; they agree iff that multiplier is 1 or the base is 0. The first up block reads twice the respective width |

## Left out

- What `GaussianFourierProjection` and `Timesteps` compute. Their classes are not part of this model. `Schedule.ProjectionWidth` assumes their output widths: `2 * embedding_size` for the Fourier projection, which cannot be built with `embedding_size = None`, and `num_channels` for `Timesteps`.
- Tensor numerics. The bodies of residual, attention, resampling, normalisation and embedding modules are left out; only the widths they read and write are modelled.
- What a down block of `unet_new` emits into the skip tuple, and how many resnets an up block has. The block classes are not part of this model. `Network.ForwardDrainsSkipBuffer` assumes both counts. A down block emits one tensor per layer, plus one per downsampler; this is the count the legacy builders spell out. `len(upsample_block.resnets)`, by which line 412 slices the tuple, is the up block's `num_layers`.
- `get_down_block` and `get_up_block` tag resolution is left out: tags are carried uninterpreted. So are the `Skip` down blocks' `skip_sample` path and the block-type-specific extras.
- Attention placement conditions (`ds in attention_resolutions`, `curr_res in attn_resolutions`) and head arithmetic are left out. Only the `ds` factor itself is tracked, in `LdmBuilder.AttentionMirror`.
- GroupNorm group counts are left out. They never change a width, but they decide which widths can be built. `torch.nn.GroupNorm` needs a non-zero group count that divides the channel count. Depending on the torch version, a violation raises in the constructor or only at the first forward call. The residual and attention blocks' own normalisations belong to block classes that are not part of this model. The success conditions below therefore describe the channel bookkeeping alone:
- Schedule.Build: the rejection of a `block_channels[0]` that is not a multiple of 32 by `conv_norm_out` (line 287) is not modelled, so `[48, 96]` counts as buildable.
- SdeBuilder.Build: the rejection by the `min(in_ch // 4, 32)`-group norms (lines 1026, 1030, 1037, 1065) is not modelled. Examples are `nf = 200` with `ch_mult[0] = 1` (200 is not a multiple of 32) and `nf = 2` (zero groups).
- DdpmBuilder.Build: the rejection of a final `block_in` that is not a multiple of 32 by `Normalize` (lines 636 and 1091) is not modelled.
- LdmBuilder.Build: the rejection of a `model_channels` that is not a multiple of 32 by the output head's norm (line 819) is not modelled; the row claims only that no `pop()` underflows.
- The SDE builder's progressive output path and pyramid upsamplers (lines 1023-1045) are left out. They do not change `in_ch`. The `ValueError`s at lines 1034 and 1044 cannot be reached once the asserts at lines 861-863 pass.
- The SDE "residual" input pyramid (lines 956-958) is left out. It builds a module but keeps `in_ch`; `SdeBuilder.AfterDownsample` keeps the width in that case.
- `set_weights`, the `remove_*` helpers, `register_to_config`, the debug `print` and the device transfer in `forward` are left out. They are I/O or weight copying.
- `None`-valued arguments other than `nf` and `time_embedding_act_fn`. Every other argument is assumed to be given, and typed as a number, list or string. Several default to `None` in the signature, and the failures they cause are not modelled:
  - `sde=True`, `nf=None` and `ch_mult=None` are the defaults, so the all-defaults constructor call raises `TypeError` at line 181 (`[nf * x for x in ch_mult]`);
  - `progressive_combine=None` raises `AttributeError` at line 864 (`.lower()`);
  - `num_res_blocks=None` raises `TypeError` at `num_res_blocks + 1` (line 273).
- Timesteps.Normalize: a float is converted by truncation for every real value. The out-of-range behaviour of converting a huge float to `torch.long` is not modelled, because it depends on the platform.
- Combine.AsciiLower: Python's `str.lower()` also lowers non-ASCII letters. The model lowers ASCII only, because the recognised method names are ASCII.

## Where the code and its description differ

- A `Combine` with an unrecognised method is built without complaint. The `ValueError` comes only from `forward` (lines 29-34). See `Combine.UnknownMethodFailsOnlyAtForward`.
- In `init_for_sde` an unknown embedding type fails at `assert` (line 863) with `AssertionError`. The `ValueError` branch at line 878 is unreachable.
- `init_for_sde` with no levels or no residual blocks fails with `UnboundLocalError`, because `out_ch` is never bound.
- `init_for_ldm` with an empty `channel_mult` builds, and leaves the input convolution's width on `input_block_chans` (`LdmBuilder.StackEmpties`).
- `init_for_ddpm` with `num_res_blocks == 0` still builds. Its down path then does not chain, so `DdpmBuilder.DownChains` and `DdpmBuilder.BuildWidths` require at least one residual block.
- The `init_for_ldm` output head is sized for `model_channels`. It matches the last output block only when `channel_mult[0] == 1` (`LdmBuilder.OutputHeadMatches`). The multipliers `__init__` derives always satisfy this (`LegacyConfig.LegacyMult`).
- With "input_skip" and "cat", `init_for_sde` pushes doubled downsampler widths. Its up path therefore differs from the other builders' exactly at the blocks that pop those entries (`Agreement.SdeCatDoublesEntryWidths`).
- Nothing compares the tag lists with `block_channels`. Tag lists shorter than the widths build without the configuration error that inconsistent lengths are documented to raise. Under `sde` this happens for any `ch_mult` longer than four, because the four down tags are forced (lines 187-192; `Network.SdeManyLevelsBuild`). The last down block then does not write the width the middle block reads (`Schedule.ShortDownPath`), and with four up tags `forward` leaves the `conv_in` output in the skip tuple (`Network.SdeManyLevelsLeaveConvIn`, `Network.ShortTagsLeaveConvIn`).
- With `num_res_blocks == 0` the LDM and DDPM builders build different networks from the same widths. The LDM input loop never changes `ch`. The DDPM loop resets `block_in` to `ch * in_ch_mult[i]` at every level (`Agreement.LdmDdpmDifferWithoutResBlocks`).
- Under `sde` the Fourier projection is built with `embedding_size = nf` (line 206), but `linear_1` is built for `2 * block_channels[0] = 2 * nf * ch_mult[0]` (line 207). They agree only when `ch_mult[0] == 1` or `nf == 0` (`Network.SdeTimeStepsFeedEmbedding`). Outside `sde`, the Fourier embedding reads the `nf` argument, whose default is `None`.

=== FILE: agreement.dfy ===
/** The three legacy builders describe the same up path in three ways: the
    SDE builder pops `hs_c`, the LDM builder pops `input_block_chans`, and
    the DDPM builder writes the skip widths down per level. Given the same
    base width, multipliers and residual-block count, with at least one
    residual block per level, they build the same up-path residual blocks,
    except where the SDE builder's "cat" combiner has doubled a
    downsampler's width. With no residual blocks the LDM and DDPM builders
    part ways. */
module Agreement {
  import opened Errors
  import opened Seqs
  import opened SkipStack
  import SdeBuilder
  import LdmBuilder
  import DdpmBuilder

  /** The DDPM configuration with the same base width, multipliers and
      residual-block count; the input and output channel counts are free. */
  function SameWidths(ch: nat, mult: seq<nat>, r: nat, inChannels: nat, outCh: nat): (d: DdpmBuilder.DdpmConfig)
    ensures d.ch == ch && d.chMult == mult && d.numResBlocks == r
  {
    DdpmBuilder.DdpmConfig(mult, ch, r, inChannels, outCh)
  }

  /** The LDM output blocks and the DDPM up blocks coincide. */
  lemma LdmMatchesDdpm(l: LdmBuilder.LdmConfig, ln: LdmBuilder.LdmNet, inChannels: nat, outCh: nat)
    requires LdmBuilder.Build(l) == Ok(ln)
    requires |l.channelMult| >= 1 && l.numResBlocks >= 1
    ensures DdpmBuilder.Build(SameWidths(l.modelChannels, l.channelMult, l.numResBlocks, inChannels, outCh)).Ok?
    ensures ln.outputBlocks == DdpmBuilder.Build(SameWidths(l.modelChannels, l.channelMult, l.numResBlocks, inChannels, outCh)).value.upBlocks
    ensures ln.midChannels == DdpmBuilder.Build(SameWidths(l.modelChannels, l.channelMult, l.numResBlocks, inChannels, outCh)).value.midChannels
    ensures ln.finalChannels == DdpmBuilder.Build(SameWidths(l.modelChannels, l.channelMult, l.numResBlocks, inChannels, outCh)).value.finalChannels
  {
    DdpmUpPath(l.modelChannels, l.channelMult, l.numResBlocks, inChannels, outCh);
    LdmBuilder.BuildWidths(l, ln);
  }

  /** The DDPM up path of `SameWidths`, in the terms both builders share. */
  lemma DdpmUpPath(ch: nat, mult: seq<nat>, r: nat, inChannels: nat, outCh: nat)
    requires |mult| >= 1 && r >= 1
    ensures DdpmBuilder.Build(SameWidths(ch, mult, r, inChannels, outCh)).Ok?
    ensures DdpmBuilder.Build(SameWidths(ch, mult, r, inChannels, outCh)).value.midChannels == ch * mult[|mult| - 1]
    ensures DdpmBuilder.Build(SameWidths(ch, mult, r, inChannels, outCh)).value.finalChannels == ch * mult[0]
    ensures && |Pushes(ch, mult, r, 1)| == |UpOuts(ch, mult, r)|
            && DdpmBuilder.Build(SameWidths(ch, mult, r, inChannels, outCh)).value.upBlocks
               == ChainBlocks(ch * mult[|mult| - 1], Reverse(Pushes(ch, mult, r, 1)), UpOuts(ch, mult, r))
  {
    DdpmBuilder.BuildWidths(SameWidths(ch, mult, r, inChannels, outCh));
  }

  /** Without a doubling combiner, the SDE up blocks are the DDPM ones. */
  lemma SdeMatchesDdpm(s: SdeBuilder.SdeConfig, sn: SdeBuilder.SdeNet, inChannels: nat, outCh: nat)
    requires SdeBuilder.Build(s) == Ok(sn)
    requires SdeBuilder.Factor(s) == 1
    ensures DdpmBuilder.Build(SameWidths(s.nf, s.chMult, s.numResBlocks, inChannels, outCh)).Ok?
    ensures sn.upBlocks == DdpmBuilder.Build(SameWidths(s.nf, s.chMult, s.numResBlocks, inChannels, outCh)).value.upBlocks
    ensures sn.midChannels == DdpmBuilder.Build(SameWidths(s.nf, s.chMult, s.numResBlocks, inChannels, outCh)).value.midChannels
    ensures sn.finalChannels == DdpmBuilder.Build(SameWidths(s.nf, s.chMult, s.numResBlocks, inChannels, outCh)).value.finalChannels
  {
    DdpmUpPath(s.nf, s.chMult, s.numResBlocks, inChannels, outCh);
    SdeBuilder.BuildShape(s, sn);
    SdeBuilder.BuildStack(s, sn);
  }

  /** With "input_skip" and "cat", the SDE up blocks differ from the DDPM
      ones exactly at the entries the downsamplers pushed. Write the `t`-th
      up block (`t <= R`) of down level `lv` at `UpIndex`: both builders
      give it the same output width, and the SDE block reads the DDPM
      block's width plus the previous level's width `nf * ch_mult[lv-1]`
      when it is the last block of a level other than the outermost, and
      the same width otherwise. */
  lemma SdeCatDoublesEntryWidths(s: SdeBuilder.SdeConfig, sn: SdeBuilder.SdeNet, inChannels: nat, outCh: nat, lv: nat, t: nat)
    requires SdeBuilder.Build(s) == Ok(sn)
    requires SdeBuilder.Factor(s) == 2
    requires lv < |s.chMult| && t <= s.numResBlocks
    ensures DdpmBuilder.Build(SameWidths(s.nf, s.chMult, s.numResBlocks, inChannels, outCh)).Ok?
    ensures |sn.upBlocks| == |DdpmBuilder.Build(SameWidths(s.nf, s.chMult, s.numResBlocks, inChannels, outCh)).value.upBlocks|
    ensures UpIndex(|s.chMult|, s.numResBlocks, lv, t) < |sn.upBlocks|
    ensures sn.upBlocks[UpIndex(|s.chMult|, s.numResBlocks, lv, t)].outChannels
         == DdpmBuilder.Build(SameWidths(s.nf, s.chMult, s.numResBlocks, inChannels, outCh)).value.upBlocks[UpIndex(|s.chMult|, s.numResBlocks, lv, t)].outChannels
    ensures sn.upBlocks[UpIndex(|s.chMult|, s.numResBlocks, lv, t)].inChannels
         == DdpmBuilder.Build(SameWidths(s.nf, s.chMult, s.numResBlocks, inChannels, outCh)).value.upBlocks[UpIndex(|s.chMult|, s.numResBlocks, lv, t)].inChannels
            + (if t == s.numResBlocks && lv > 0 then s.nf * s.chMult[lv - 1] else 0)
  {
    var m := s.chMult;
    var R := s.numResBlocks;
    var dn := DdpmBuilder.Build(SameWidths(s.nf, m, R, inChannels, outCh)).value;
    assert dn.upBlocks == ChainBlocks(s.nf * m[|m| - 1], UpSkips(s.nf, m, R, 1), UpOuts(s.nf, m, R)) by {
      DdpmUpPath(s.nf, m, R, inChannels, outCh);
      PushesMirror(s.nf, m, R, 1);
    }
    assert sn.midChannels == s.nf * m[|m| - 1] by { SdeBuilder.BuildShape(s, sn); }
    assert sn.upBlocks == ChainBlocks(sn.midChannels, UpSkips(s.nf, m, R, SdeBuilder.Factor(s)), UpOuts(s.nf, m, R)) by {
      SdeBuilder.UpBlocksPerLevel(s, sn);
    }
    DoubledEntries(s.nf, m, R, s.nf * m[|m| - 1], lv, t);
  }

  /** Without residual blocks the LDM and DDPM builders part ways: the LDM
      input loop never changes `ch`, so its middle block and first output
      block read `model_channels`-based widths, while the DDPM loop resets
      `block_in` to `ch * in_ch_mult[i]` at every level, so both read from
      `ch * ch_mult[L-2]`. They agree only when that multiplier is 1 (or
      the base width is 0). */
  lemma LdmDdpmDifferWithoutResBlocks(l: LdmBuilder.LdmConfig, ln: LdmBuilder.LdmNet, inChannels: nat, outCh: nat)
    requires LdmBuilder.Build(l) == Ok(ln)
    requires l.numResBlocks == 0 && |l.channelMult| >= 2
    ensures DdpmBuilder.Build(SameWidths(l.modelChannels, l.channelMult, 0, inChannels, outCh)).Ok?
    ensures ln.midChannels == l.modelChannels
    ensures DdpmBuilder.Build(SameWidths(l.modelChannels, l.channelMult, 0, inChannels, outCh)).value.midChannels
         == l.modelChannels * l.channelMult[|l.channelMult| - 2]
    ensures ln.midChannels == DdpmBuilder.Build(SameWidths(l.modelChannels, l.channelMult, 0, inChannels, outCh)).value.midChannels
        <==> l.modelChannels == 0 || l.channelMult[|l.channelMult| - 2] == 1
    ensures |ln.outputBlocks| > 0 && ln.outputBlocks[0].inChannels == 2 * l.modelChannels
    ensures && |DdpmBuilder.Build(SameWidths(l.modelChannels, l.channelMult, 0, inChannels, outCh)).value.upBlocks| > 0
            && DdpmBuilder.Build(SameWidths(l.modelChannels, l.channelMult, 0, inChannels, outCh)).value.upBlocks[0].inChannels
               == 2 * (l.modelChannels * l.channelMult[|l.channelMult| - 2])
  {
    var m := l.channelMult;
    LdmBuilder.NoResBlocksWidths(l, ln);
    DdpmBuilder.BuildWithoutResBlocks(SameWidths(l.modelChannels, m, 0, inChannels, outCh));
    assert DdpmBuilder.InChMult(m)[|m| - 1] == m[|m| - 2];
    UnitFactor(l.modelChannels, m[|m| - 2]);
  }
}

=== FILE: combine.dfy ===
/** `Combine` (unet_unconditional.py, lines 18-34): merges a pyramid tensor `x`
    into the main-path tensor `y`, after a 1x1 convolution of `x`, either by
    channel concatenation ("cat") or by elementwise addition ("sum").
    Tensors are abstracted to their NCHW shape. */
module Combine {
  import opened Errors

  /** The shape of a 4-D feature map: batch, channels, height, width. */
  datatype Shape = Shape(batch: nat, channels: nat, height: nat, width: nat)

  /** A `Combine` module: its 1x1 convolution maps `dim1` channels to `dim2`. */
  datatype Combiner = Combiner(dim1: nat, dim2: nat, methodName: string)

  /** The two methods `Combine.forward` recognises. */
  predicate KnownMethod(methodName: string)
  {
    methodName == "cat" || methodName == "sum"
  }

  /** Two shapes that agree on every dimension except the channel dimension,
      which is what `torch.cat(..., dim=1)` demands of its operands. */
  predicate SameExceptChannels(a: Shape, b: Shape)
  {
    a.batch == b.batch && a.height == b.height && a.width == b.width
  }

  /** Torch broadcasting of one dimension of an elementwise operation. */
  function BroadcastDim(a: nat, b: nat): (r: Option<nat>)
    ensures r.Some? <==> (a == b || a == 1 || b == 1)
    ensures r.Some? ==> r.value == a || r.value == b
  {
    if a == b then Some(a)
    else if a == 1 then Some(b)
    else if b == 1 then Some(a)
    else None
  }

  /** The shape of `a + b` under torch broadcasting. */
  function Broadcast(a: Shape, b: Shape): (r: Result<Shape>)
    ensures r.Ok? <==>
      && BroadcastDim(a.batch, b.batch).Some?
      && BroadcastDim(a.channels, b.channels).Some?
      && BroadcastDim(a.height, b.height).Some?
      && BroadcastDim(a.width, b.width).Some?
    ensures a == b ==> r == Ok(b)
    ensures r.Err? ==> r.error == ShapeError
  {
    var n := BroadcastDim(a.batch, b.batch);
    var c := BroadcastDim(a.channels, b.channels);
    var h := BroadcastDim(a.height, b.height);
    var w := BroadcastDim(a.width, b.width);
    if n.Some? && c.Some? && h.Some? && w.Some? then
      Ok(Shape(n.value, c.value, h.value, w.value))
    else
      Err(ShapeError)
  }

  /** `Conv_0`, a 1x1 convolution with no padding: it needs `dim1` input
      channels, emits `dim2`, and keeps batch and spatial size. */
  function Conv(c: Combiner, x: Shape): (r: Result<Shape>)
    ensures r.Ok? <==> x.channels == c.dim1
    ensures r.Ok? ==> r.value.channels == c.dim2 && SameExceptChannels(r.value, x)
  {
    if x.channels == c.dim1 then Ok(x.(channels := c.dim2)) else Err(ShapeError)
  }

  /** `Combine.forward(x, y)`: the convolution runs first, so a shape error
      in it wins over an unrecognised method. */
  function Forward(c: Combiner, x: Shape, y: Shape): (r: Result<Shape>)
    ensures x.channels != c.dim1 ==> r == Err(ShapeError)
    ensures x.channels == c.dim1 && !KnownMethod(c.methodName) ==> r == Err(ValueError)
    ensures c.methodName == "cat" ==>
      (r.Ok? <==> x.channels == c.dim1 && SameExceptChannels(x, y))
    ensures c.methodName == "cat" && r.Ok? ==>
      r.value.channels == c.dim2 + y.channels && SameExceptChannels(r.value, y)
    ensures c.methodName == "sum" && x.channels == c.dim1 && SameExceptChannels(x, y) && c.dim2 == y.channels ==>
      r == Ok(y)
  {
    var h :- Conv(c, x);
    if c.methodName == "cat" then
      if SameExceptChannels(h, y) then Ok(y.(channels := h.channels + y.channels))
      else Err(ShapeError)
    else if c.methodName == "sum" then
      Broadcast(h, y)
    else
      Err(ValueError)
  }

  /** Python's `str.lower()` restricted to ASCII letters. */
  function AsciiLower(s: string): (r: string)
    ensures |r| == |s|
    ensures forall k :: 0 <= k < |s| ==>
      r[k] == (if 'A' <= s[k] <= 'Z' then (s[k] as int + 32) as char else s[k])
  {
    if s == [] then []
    else
      var ch := if 'A' <= s[0] <= 'Z' then (s[0] as int + 32) as char else s[0];
      [ch] + AsciiLower(s[1..])
  }

  /** The width of the main path after the SDE builder appends a `Combine`
      whose 1x1 convolution targets the current width `inCh`
      (lines 951-954): only "cat" doubles it. */
  function WidthAfterCombine(methodName: string, inCh: nat): (r: nat)
    ensures methodName == "cat" ==> r == 2 * inCh
    ensures methodName != "cat" ==> r == inCh
  {
    if methodName == "cat" then inCh * 2 else inCh
  }

  /** The builder's doubling rule agrees with what `Combine.forward` produces
      for the main-path tensor it is meant for, for both recognised methods. */
  lemma WidthAfterCombineMatchesForward(methodName: string, pyramidCh: nat, y: Shape, x: Shape)
    requires KnownMethod(methodName)
    requires x.channels == pyramidCh && SameExceptChannels(x, y)
    ensures Forward(Combiner(pyramidCh, y.channels, methodName), x, y)
         == Ok(y.(channels := WidthAfterCombine(methodName, y.channels)))
  {
  }

  /** An unrecognised method is accepted when the builder constructs the
      module (the width is left unchanged) and fails only when the module's
      forward pass runs. */
  lemma UnknownMethodFailsOnlyAtForward(methodName: string, pyramidCh: nat, y: Shape, x: Shape)
    requires !KnownMethod(methodName)
    requires x.channels == pyramidCh
    ensures WidthAfterCombine(methodName, y.channels) == y.channels
    ensures Forward(Combiner(pyramidCh, y.channels, methodName), x, y) == Err(ValueError)
  {
  }
}

=== FILE: ddpm.dfy ===
/** The channel arithmetic of the DDPM builder `init_for_ddpm`
    (unet_unconditional.py, lines 536-637). Unlike the other legacy builders
    it keeps no stack: each up block's skip width is written down directly
    from `in_ch_mult = (1,) + ch_mult` (lines 611-615). This module models
    that arithmetic and shows it is what a stack of the down path's widths
    would hand back. */
module DdpmBuilder {
  import opened Errors
  import opened Seqs
  import opened Schedule
  import opened SkipStack

  /** The arguments of `init_for_ddpm` that decide widths. */
  datatype DdpmConfig = DdpmConfig(
    chMult: seq<nat>,
    ch: nat,
    numResBlocks: nat,
    inChannels: nat,
    outCh: nat)

  /** `in_ch_mult = (1,) + ch_mult`: the multiplier a level is entered with. */
  function InChMult(m: seq<nat>): (r: seq<nat>)
    ensures |r| == |m| + 1 && r[0] == 1
    ensures forall i :: 0 < i <= |m| ==> r[i] == m[i - 1]
  {
    [1] + m
  }

  /** The residual blocks of down level `level`: the first reads
      `block_in = ch * in_ch_mult[level]`, every block writes
      `ch * ch_mult[level]`. */
  function LevelBlocks(c: DdpmConfig, level: nat): (bs: seq<ResIO>)
    requires level < |c.chMult|
    ensures |bs| == c.numResBlocks
    ensures forall k :: 0 <= k < |bs| ==> bs[k].outChannels == c.ch * c.chMult[level]
    ensures forall k :: 0 < k < |bs| ==> bs[k].inChannels == c.ch * c.chMult[level]
    ensures |bs| > 0 ==> bs[0].inChannels == c.ch * InChMult(c.chMult)[level]
  {
    var blockIn := c.ch * InChMult(c.chMult)[level];
    var blockOut := c.ch * c.chMult[level];
    if c.numResBlocks == 0 then [] else [ResIO(blockIn, blockOut)] + Repeat(ResIO(blockOut, blockOut), c.numResBlocks - 1)
  }

  /** The down levels from `level` on: each resets `block_in` to
      `ch * in_ch_mult[level]`, builds its residual blocks, and the width
      the next statement reads is the final `block_in`. */
  datatype DownTrace = DownTrace(resBlocks: seq<ResIO>, downsamplers: seq<nat>, blockIn: nat)

  function DownLevels(c: DdpmConfig, level: nat): (t: DownTrace)
    requires level < |c.chMult|
    decreases |c.chMult| - level
    ensures |t.downsamplers| == |c.chMult| - 1 - level
  {
    var blocks := LevelBlocks(c, level);
    var last := if c.numResBlocks == 0 then c.ch * InChMult(c.chMult)[level] else c.ch * c.chMult[level];
    if level == |c.chMult| - 1 then DownTrace(blocks, [], last)
    else
      var next := DownLevels(c, level + 1);
      DownTrace(blocks + next.resBlocks, [last] + next.downsamplers, next.blockIn)
  }

  /** Each block reads what the block before it wrote. */
  ghost predicate Chained(bs: seq<ResIO>)
  {
    forall k :: 0 < k < |bs| ==> bs[k].inChannels == bs[k - 1].outChannels
  }

  lemma ChainedAppend(a: seq<ResIO>, b: seq<ResIO>)
    requires Chained(a) && Chained(b)
    requires a != [] && b != [] && b[0].inChannels == a[|a| - 1].outChannels
    ensures Chained(a + b)
  {
    forall k | 0 < k < |a + b|
      ensures (a + b)[k].inChannels == (a + b)[k - 1].outChannels
    {
      if k > |a| {
        assert (a + b)[k] == b[k - |a|] && (a + b)[k - 1] == b[k - 1 - |a|];
      }
    }
  }

  /** The down path has `R` residual blocks per level. */
  lemma {:induction false} DownCount(c: DdpmConfig, level: nat)
    requires level < |c.chMult|
    decreases |c.chMult| - level
    ensures |DownLevels(c, level).resBlocks| == (|c.chMult| - level) * c.numResBlocks
  {
    if level < |c.chMult| - 1 {
      var deeper := |c.chMult| - level - 1;
      var blocks, next := LevelBlocks(c, level), DownLevels(c, level + 1).resBlocks;
      assert DownLevels(c, level).resBlocks == blocks + next;
      DownCount(c, level + 1);
      assert |blocks + next| == c.numResBlocks + deeper * c.numResBlocks;
      SuccMul(deeper, c.numResBlocks);
    }
  }

  /** With residual blocks, the down path is one chain: each level's first
      block reads what the previous level wrote (or `ch`, the input
      convolution's width, at level 0), and the last block writes the
      deepest width, which the middle block reads. */
  lemma {:induction false} DownChains(c: DdpmConfig, level: nat)
    requires c.numResBlocks >= 1 && level < |c.chMult|
    decreases |c.chMult| - level
    ensures var t := DownLevels(c, level);
      && t.resBlocks != []
      && t.resBlocks[0].inChannels == (if level == 0 then c.ch else c.ch * c.chMult[level - 1])
      && Chained(t.resBlocks)
      && t.resBlocks[|t.resBlocks| - 1].outChannels == t.blockIn == c.ch * c.chMult[|c.chMult| - 1]
  {
    var blocks := LevelBlocks(c, level);
    assert Chained(blocks);
    if level < |c.chMult| - 1 {
      DownChains(c, level + 1);
      var next := DownLevels(c, level + 1);
      ChainedAppend(blocks, next.resBlocks);
      assert DownLevels(c, level).resBlocks == blocks + next.resBlocks;
    }
  }

  /** Without residual blocks nothing carries a width from one level to
      the next: each level resets `block_in`, and the loop ends with
      `ch * in_ch_mult[L-1]`. */
  lemma {:induction false} DownEndsWithoutResBlocks(c: DdpmConfig, level: nat)
    requires c.numResBlocks == 0 && level < |c.chMult|
    decreases |c.chMult| - level
    ensures DownLevels(c, level).blockIn == c.ch * InChMult(c.chMult)[|c.chMult| - 1]
  {
    if level < |c.chMult| - 1 {
      DownEndsWithoutResBlocks(c, level + 1);
    }
  }

  /** The downsampler of level `level + k` reads that level's width. */
  lemma {:induction false} DownResamplers(c: DdpmConfig, level: nat)
    requires c.numResBlocks >= 1 && level < |c.chMult|
    decreases |c.chMult| - level
    ensures forall k :: 0 <= k < |DownLevels(c, level).downsamplers| ==>
      DownLevels(c, level).downsamplers[k] == c.ch * c.chMult[level + k]
  {
    if level < |c.chMult| - 1 {
      DownResamplers(c, level + 1);
      var t := DownLevels(c, level);
      var next := DownLevels(c, level + 1);
      assert t.downsamplers == [c.ch * c.chMult[level]] + next.downsamplers;
      forall k | 0 < k < |t.downsamplers|
        ensures t.downsamplers[k] == c.ch * c.chMult[level + k]
      {
        assert t.downsamplers[k] == next.downsamplers[k - 1];
        assert next.downsamplers[k - 1] == c.ch * c.chMult[(level + 1) + (k - 1)];
      }
    }
  }

  /** The skip width `skip_in` of every up residual block, levels `i..L-1`
      deepest first, as lines 611-615 compute it: `ch * ch_mult[i]` for the
      first `R` blocks of level `i` and `ch * in_ch_mult[i]` for the last. */
  function SkipInFrom(c: DdpmConfig, i: nat): seq<nat>
    requires i <= |c.chMult|
    decreases |c.chMult| - i
  {
    if i == |c.chMult| then []
    else SkipInFrom(c, i + 1) + Repeat(c.ch * c.chMult[i], c.numResBlocks) + [c.ch * InChMult(c.chMult)[i]]
  }

  /** Level by level, the hard-coded skip widths are the mirrored widths
      `SkipStack` writes per level: `ch * ch_mult[i]` for the first `R`
      blocks and the entry width `ch * in_ch_mult[i]` for the last. */
  lemma {:induction false} SkipInIsUpSkips(c: DdpmConfig, i: nat)
    requires i <= |c.chMult|
    decreases |c.chMult| - i
    ensures SkipInFrom(c, i) == UpSkipsFrom(c.ch, c.chMult, c.numResBlocks, 1, i)
  {
    if i < |c.chMult| {
      SkipInIsUpSkips(c, i + 1);
      assert c.ch * InChMult(c.chMult)[i] == LevelEntryWidth(c.ch, c.chMult, 1, i);
    }
  }

  /** The hard-coded skip widths of all levels are what a stack hands
      back when the input convolution's width and then every level's
      residual-block and downsampler widths are pushed in order, as the
      other two builders push them onto `hs_c` and `input_block_chans`:
      the push sequence, reversed. */
  lemma SkipInIsReversedPushes(c: DdpmConfig)
    requires |c.chMult| >= 1
    ensures SkipInFrom(c, 0) == Reverse(Pushes(c.ch, c.chMult, c.numResBlocks, 1))
  {
    SkipInIsUpSkips(c, 0);
    PushesMirror(c.ch, c.chMult, c.numResBlocks, 1);
  }

  /** The widths of the network `init_for_ddpm` builds. */
  datatype DdpmNet = DdpmNet(
    time: TimeSpec,
    convIn: Conv,
    down: DownTrace,
    midChannels: nat,
    upBlocks: seq<ResIO>,
    finalChannels: nat,
    convOut: Conv)

  /** `init_for_ddpm` (lines 536-637), reduced to widths. `block_in` is
      bound only inside the level loop, so with no levels the middle block
      (line 595) raises `UnboundLocalError`. */
  function Build(c: DdpmConfig): (r: Result<DdpmNet>)
    ensures r.Ok? <==> |c.chMult| >= 1
    ensures r.Err? ==> r.error == UnboundLocalError
  {
    if c.chMult == [] then Err(UnboundLocalError)
    else
      var down := DownLevels(c, 0);
      var outs := UpOuts(c.ch, c.chMult, c.numResBlocks);
      var skips := SkipInFrom(c, 0);
      assert |skips| == |outs| by {
        SkipInIsUpSkips(c, 0);
        PushesMirror(c.ch, c.chMult, c.numResBlocks, 1);
      }
      var up := ChainBlocks(down.blockIn, skips, outs);
      var finalCh := if up == [] then down.blockIn else up[|up| - 1].outChannels;
      Ok(DdpmNet(TimeSpec(c.ch, 4 * c.ch, true), Conv(c.inChannels, c.ch), down, down.blockIn, up,
                 finalCh, Conv(finalCh, c.outCh)))
  }

  /** Without residual blocks the middle block reads what the deepest
      level reset `block_in` to, `ch * in_ch_mult[L-1]`, and the first up
      block reads that width twice: running, and as its `skip_in`. */
  lemma BuildWithoutResBlocks(c: DdpmConfig)
    requires c.numResBlocks == 0 && |c.chMult| >= 1
    ensures Build(c).Ok?
    ensures Build(c).value.midChannels == c.ch * InChMult(c.chMult)[|c.chMult| - 1]
    ensures && |Build(c).value.upBlocks| > 0
            && Build(c).value.upBlocks[0].inChannels == 2 * (c.ch * InChMult(c.chMult)[|c.chMult| - 1])
  {
    var L := |c.chMult|;
    var w := c.ch * InChMult(c.chMult)[L - 1];
    var outs := UpOuts(c.ch, c.chMult, 0);
    assert |outs| == L by { UpOutsShape(c.ch, c.chMult, 0); }
    assert DownLevels(c, 0).blockIn == w by { DownEndsWithoutResBlocks(c, 0); }
    assert SkipInFrom(c, 0) == UpSkipsFrom(c.ch, c.chMult, 0, 1, 0) by { SkipInIsUpSkips(c, 0); }
    assert UpSkipsFrom(c.ch, c.chMult, 0, 1, 0)[0] == w by {
      UpSkipsFromAt(c.ch, c.chMult, 0, 1, 0, L - 1, 0);
    }
  }

  /** With residual blocks, the up blocks read exactly what popping the
      reference pushes would give them, the middle block reads the deepest
      width, and the output head reads `ch * ch_mult[0]`. */
  lemma BuildWidths(c: DdpmConfig)
    requires |c.chMult| >= 1 && c.numResBlocks >= 1
    ensures Build(c).Ok?
    ensures Build(c).value.midChannels == c.ch * c.chMult[|c.chMult| - 1]
    ensures && |Pushes(c.ch, c.chMult, c.numResBlocks, 1)| == |UpOuts(c.ch, c.chMult, c.numResBlocks)|
            && Build(c).value.upBlocks == ChainBlocks(Build(c).value.midChannels, Reverse(Pushes(c.ch, c.chMult, c.numResBlocks, 1)),
                                                      UpOuts(c.ch, c.chMult, c.numResBlocks))
    ensures Build(c).value.finalChannels == c.ch * c.chMult[0]
    ensures Build(c).value.convOut.inChannels == Build(c).value.finalChannels
  {
    DownChains(c, 0);
    SkipInIsUpSkips(c, 0);
    PushesMirror(c.ch, c.chMult, c.numResBlocks, 1);
    PushesLength(c.ch, c.chMult, c.numResBlocks, 1);
    UpOutsShape(c.ch, c.chMult, c.numResBlocks);
  }
}

=== FILE: errors.dfy ===
/** The failures the modelled Python code can raise, and a failure-compatible
    result type so that `:-` propagates them the way an exception would. */
module Errors {

  /** The Python exception classes the modelled code can raise. */
  datatype PyError =
    | IndexError          // a list/tuple index or `pop()` out of range
    | ValueError          // an unrecognised option string
    | AssertionError      // a failed `assert`
    | UnboundLocalError   // a local variable read before any assignment
    | ZeroDivisionError   // `x // 0`
    | LongRangeError      // a Python int outside the range of torch.long
    | ShapeError          // torch rejects the operand shapes

  /** An argument that may be `None` in Python, such as `nf` or
      `time_embedding_act_fn`. */
  datatype Option<+T> = None | Some(value: T)

  /** Either a value or the exception that interrupted the computation. */
  datatype Result<+T> = Ok(value: T) | Err(error: PyError) {

    predicate IsFailure() {
      Err?
    }

    function PropagateFailure<U>(): Result<U>
      requires Err?
    {
      Err(error)
    }

    function Extract(): T
      requires Ok?
    {
      value
    }
  }
}

=== FILE: ldm.dfy ===
/** The channel bookkeeping of the latent-diffusion builder `init_for_ldm`
    (unet_unconditional.py, lines 639-822). `input_block_chans` is the
    skip-channel stack: the input convolution, every residual block and
    every downsampler push the running width `ch`, and every output
    residual block pops one width and reads `ch` plus that width. The
    builder also tracks `ds`, the downsampling factor that decides where
    attention goes; it is kept here to show that both paths see the same
    factor at the same level. */
module LdmBuilder {
  import opened Errors
  import opened Seqs
  import opened Schedule
  import opened SkipStack

  /** The arguments of `init_for_ldm` that decide widths. */
  datatype LdmConfig = LdmConfig(
    inChannels: nat,
    modelChannels: nat,
    channelMult: seq<nat>,
    numResBlocks: nat,
    timeEmbedDim: nat,
    outChannels: nat)

  /** `2^k` */
  function Pow2(k: nat): (p: nat)
    ensures p >= 1
  {
    if k == 0 then 1 else 2 * Pow2(k - 1)
  }

  /** What the input-block loop (lines 690-736) builds from `level` on:
      residual blocks, the widths the downsamplers read, the widths pushed
      onto `input_block_chans`, the `ds` each level's blocks are built
      with, and the final `ch` and `ds`. */
  datatype InputTrace = InputTrace(
    resBlocks: seq<ResIO>,
    downsamplers: seq<nat>,
    pushes: seq<nat>,
    levelDs: seq<nat>,
    ch: nat,
    ds: nat)

  function InputLevels(c: LdmConfig, level: nat, ch: nat, ds: nat): (t: InputTrace)
    requires level <= |c.channelMult|
    decreases |c.channelMult| - level
    ensures |t.levelDs| == |c.channelMult| - level
    ensures level < |c.channelMult| ==> |t.downsamplers| == |c.channelMult| - 1 - level
  {
    if level == |c.channelMult| then InputTrace([], [], [], [], ch, ds)
    else
      var w := c.modelChannels * c.channelMult[level];
      var r := c.numResBlocks;
      var blocks := if r == 0 then [] else [ResIO(ch, w)] + Repeat(ResIO(w, w), r - 1);
      var ch1 := if r == 0 then ch else w;
      if level == |c.channelMult| - 1 then InputTrace(blocks, [], Repeat(w, r), [ds], ch1, ds)
      else
        var next := InputLevels(c, level + 1, ch1, 2 * ds);
        InputTrace(blocks + next.resBlocks, [ch1] + next.downsamplers, Repeat(w, r) + [ch1] + next.pushes,
                   [ds] + next.levelDs, next.ch, next.ds)
  }

  /** With at least one residual block per level the pushes are the
      reference sequence, and `ch` ends at the deepest level's width. */
  lemma {:induction false} InputPushes(c: LdmConfig, level: nat, ch: nat, ds: nat)
    requires c.numResBlocks >= 1 && level < |c.channelMult|
    decreases |c.channelMult| - level
    ensures var t := InputLevels(c, level, ch, ds);
      && t.pushes == LevelPushes(c.modelChannels, c.channelMult, c.numResBlocks, 1, level)
      && t.ch == c.modelChannels * c.channelMult[|c.channelMult| - 1]
  {
    if level < |c.channelMult| - 1 {
      var w := c.modelChannels * c.channelMult[level];
      InputPushes(c, level + 1, w, 2 * ds);
    }
  }

  /** Without residual blocks `ch` never changes, so every downsampler
      pushes the width the loop started with. */
  lemma {:induction false} InputPushesNoResBlocks(c: LdmConfig, level: nat, ch: nat, ds: nat)
    requires c.numResBlocks == 0 && level < |c.channelMult|
    decreases |c.channelMult| - level
    ensures var t := InputLevels(c, level, ch, ds);
      t.pushes == Repeat(ch, |c.channelMult| - 1 - level) && t.ch == ch
  {
    if level < |c.channelMult| - 1 {
      InputPushesNoResBlocks(c, level + 1, ch, 2 * ds);
      assert Repeat(ch, |c.channelMult| - 1 - level) == [ch] + Repeat(ch, |c.channelMult| - 1 - (level + 1));
    }
  }

  /** Entering level `level` with `ds == 2^level`, level `level + k` builds
      its blocks with `ds == 2^(level + k)`: each non-final level doubles
      it, and the loop ends with `2^(L-1)`. */
  lemma {:induction false} InputDs(c: LdmConfig, level: nat, ch: nat)
    requires level < |c.channelMult|
    decreases |c.channelMult| - level
    ensures forall k :: 0 <= k < |InputLevels(c, level, ch, Pow2(level)).levelDs| ==>
      InputLevels(c, level, ch, Pow2(level)).levelDs[k] == Pow2(level + k)
    ensures InputLevels(c, level, ch, Pow2(level)).ds == Pow2(|c.channelMult| - 1)
  {
    if level < |c.channelMult| - 1 {
      var ch1 := if c.numResBlocks == 0 then ch else c.modelChannels * c.channelMult[level];
      assert Pow2(level + 1) == 2 * Pow2(level);
      InputDs(c, level + 1, ch1);
      var t := InputLevels(c, level, ch, Pow2(level));
      var next := InputLevels(c, level + 1, ch1, Pow2(level + 1));
      assert t.levelDs == [Pow2(level)] + next.levelDs && t.ds == next.ds;
      forall k | 0 < k < |t.levelDs|
        ensures t.levelDs[k] == Pow2(level + k)
      {
        assert t.levelDs[k] == next.levelDs[k - 1];
        assert next.levelDs[k - 1] == Pow2((level + 1) + (k - 1));
      }
    }
  }

  /** The `ds` the output loop (lines 780-814) builds each level with,
      deepest level first: `level` counts down and every level but the
      outermost halves `ds` after its last block. */
  function OutputDs(ds: nat, level: nat): (r: (seq<nat>, nat))
    decreases level
    ensures |r.0| == level + 1
  {
    var next := if level != 0 then ds / 2 else ds;
    if level == 0 then ([ds], next)
    else
      var rest := OutputDs(next, level - 1);
      ([ds] + rest.0, rest.1)
  }

  /** Starting from `2^j` at level `j`, the output loop builds level `i`
      with `ds == 2^i` and ends with `ds == 1`. */
  lemma {:induction false} OutputDsHalves(j: nat)
    ensures var (levels, last) := OutputDs(Pow2(j), j);
      && last == 1
      && forall k :: 0 <= k <= j ==> levels[k] == Pow2(j - k)
  {
    if j > 0 {
      assert Pow2(j) / 2 == Pow2(j - 1);
      OutputDsHalves(j - 1);
      var levels := OutputDs(Pow2(j), j).0;
      var inner := OutputDs(Pow2(j - 1), j - 1).0;
      assert levels == [Pow2(j)] + inner;
      forall k | 0 < k <= j
        ensures levels[k] == Pow2(j - k)
      {
        assert levels[k] == inner[k - 1];
      }
    }
  }

  /** The widths of the network `init_for_ldm` builds. */
  datatype LdmNet = LdmNet(
    time: TimeSpec,
    convIn: Conv,
    input: InputTrace,
    skipWidths: seq<nat>,
    midChannels: nat,
    outputBlocks: seq<ResIO>,
    outputDs: seq<nat>,
    finalDs: nat,
    leftover: seq<nat>,
    finalChannels: nat,
    normChannels: nat,
    convOut: Conv)

  /** `init_for_ldm` (lines 639-822), reduced to widths. The pops of the
      output loop (line 780) are `PopChain`'s; an upsampler keeps `ch`, so
      it does not interrupt the chain. The output head normalises and
      convolves `model_channels` channels, whatever `ch` ended at. */
  function Build(c: LdmConfig): (r: Result<LdmNet>)
    ensures r.Ok?
  {
    var input := InputLevels(c, 0, c.modelChannels, 1);
    var hs := [c.modelChannels] + input.pushes;
    var outs := UpOuts(c.modelChannels, c.channelMult, c.numResBlocks);
    var ds := if c.channelMult == [] then (([], input.ds)) else OutputDs(input.ds, |c.channelMult| - 1);
    assert |outs| <= |hs| by {
      if c.channelMult != [] {
        UpOutsShape(c.modelChannels, c.channelMult, c.numResBlocks);
        if c.numResBlocks >= 1 {
          InputPushes(c, 0, c.modelChannels, 1);
          PushesLength(c.modelChannels, c.channelMult, c.numResBlocks, 1);
        } else {
          InputPushesNoResBlocks(c, 0, c.modelChannels, 1);
        }
      }
    }
    match PopChain(input.ch, hs, outs)
    case Err(e) => Err(e)
    case Ok(pops) =>
      var finalCh := if outs == [] then input.ch else outs[|outs| - 1];
      Ok(LdmNet(TimeSpec(c.modelChannels, c.timeEmbedDim, true), Conv(c.inChannels, c.modelChannels),
                input, hs, input.ch, pops.blocks, ds.0, ds.1, pops.rest, finalCh,
                c.modelChannels, Conv(c.modelChannels, c.outChannels)))
  }

  /** The fields of the network `Build` returns, named by the loops that
      compute them; the lemmas below reason from these rather than from
      `Build`'s body. */
  lemma BuildFields(c: LdmConfig, n: LdmNet)
    requires Build(c) == Ok(n)
    ensures var input := InputLevels(c, 0, c.modelChannels, 1);
      var outs := UpOuts(c.modelChannels, c.channelMult, c.numResBlocks);
      && n.input == input
      && n.skipWidths == [c.modelChannels] + input.pushes
      && n.midChannels == input.ch
      && PopChain(input.ch, n.skipWidths, outs).Ok?
      && n.outputBlocks == PopChain(input.ch, n.skipWidths, outs).value.blocks
      && n.leftover == PopChain(input.ch, n.skipWidths, outs).value.rest
      && n.finalChannels == (if outs == [] then input.ch else outs[|outs| - 1])
      && n.normChannels == c.modelChannels
  {
  }

  /** `input_block_chans` receives `1 + L*R + (L-1)` widths (`L` when there
      are no residual blocks, `1` when there are no levels) and the output
      loop pops `L*(R+1)`: never more than were pushed, and exactly as many
      whenever there is at least one level. */
  lemma StackBalance(c: LdmConfig, n: LdmNet)
    requires Build(c) == Ok(n)
    ensures var L := |c.channelMult|; var R := c.numResBlocks;
      && |n.skipWidths| == (if L == 0 then 1 else 1 + L * R + (L - 1))
      && |n.outputBlocks| == L * (R + 1)
  {
    var outs := UpOuts(c.modelChannels, c.channelMult, c.numResBlocks);
    assert |n.skipWidths| == 1 + |InputLevels(c, 0, c.modelChannels, 1).pushes| by { BuildFields(c, n); }
    InputPushCount(c);
    assert |n.outputBlocks| == |outs| by {
      BuildFields(c, n);
      PopChainPops(n.midChannels, n.skipWidths, outs);
    }
    UpOutsShape(c.modelChannels, c.channelMult, c.numResBlocks);
  }

  /** The output loop empties `input_block_chans` exactly when there is at
      least one level; with none, the input convolution's width stays. */
  lemma StackEmpties(c: LdmConfig, n: LdmNet)
    requires Build(c) == Ok(n)
    ensures n.leftover == [] <==> |c.channelMult| >= 1
  {
    var L := |c.channelMult|;
    var R := c.numResBlocks;
    var outs := UpOuts(c.modelChannels, c.channelMult, R);
    assert |n.leftover| + |outs| == |n.skipWidths| by {
      BuildFields(c, n);
      PopChainPops(n.midChannels, n.skipWidths, outs);
    }
    assert |outs| == L * (R + 1) by { UpOutsShape(c.modelChannels, c.channelMult, R); }
    assert |n.skipWidths| == (if L == 0 then 1 else 1 + L * R + (L - 1)) by { StackBalance(c, n); }
    MulSucc(L, R);
  }

  /** The input loop pushes `L*R + (L-1)` widths after the input
      convolution's, `L*R + L - 1` whatever the residual-block count. */
  lemma InputPushCount(c: LdmConfig)
    ensures var L := |c.channelMult|; var R := c.numResBlocks;
      |InputLevels(c, 0, c.modelChannels, 1).pushes| == (if L == 0 then 0 else L * R + (L - 1))
  {
    var L := |c.channelMult|;
    var R := c.numResBlocks;
    if L > 0 {
      if R >= 1 {
        InputPushes(c, 0, c.modelChannels, 1);
        PushesLength(c.modelChannels, c.channelMult, R, 1);
      } else {
        InputPushesNoResBlocks(c, 0, c.modelChannels, 1);
      }
    }
  }

  /** With at least one residual block per level, `input_block_chans` holds
      the reference pushes, the middle block reads the deepest level's
      width, every output residual block reads `ch` plus the popped width
      (the per-level widths of `UpSkips`), and the last one writes
      `model_channels * channel_mult[0]`. */
  lemma BuildWidths(c: LdmConfig, n: LdmNet)
    requires Build(c) == Ok(n)
    requires c.numResBlocks >= 1 && |c.channelMult| >= 1
    ensures n.skipWidths == Pushes(c.modelChannels, c.channelMult, c.numResBlocks, 1)
    ensures n.midChannels == c.modelChannels * c.channelMult[|c.channelMult| - 1]
    ensures && |UpSkips(c.modelChannels, c.channelMult, c.numResBlocks, 1)| == |UpOuts(c.modelChannels, c.channelMult, c.numResBlocks)|
            && n.outputBlocks == ChainBlocks(n.midChannels, UpSkips(c.modelChannels, c.channelMult, c.numResBlocks, 1),
                                             UpOuts(c.modelChannels, c.channelMult, c.numResBlocks))
    ensures && |n.skipWidths| == |UpOuts(c.modelChannels, c.channelMult, c.numResBlocks)|
            && n.outputBlocks == ChainBlocks(n.midChannels, Reverse(n.skipWidths), UpOuts(c.modelChannels, c.channelMult, c.numResBlocks))
    ensures n.finalChannels == c.modelChannels * c.channelMult[0]
  {
    BuildFields(c, n);
    InputPushes(c, 0, c.modelChannels, 1);
    UpOutsShape(c.modelChannels, c.channelMult, c.numResBlocks);
    ChainBlocksMirror(c.modelChannels, c.channelMult, c.numResBlocks, 1, n.midChannels);
    PopChainDrains(n.midChannels, n.skipWidths, UpOuts(c.modelChannels, c.channelMult, c.numResBlocks));
  }

  /** Without residual blocks `ch` stays `model_channels` throughout the
      input loop: the middle block reads it, and the first output block
      reads it twice, once running and once popped. */
  lemma NoResBlocksWidths(c: LdmConfig, n: LdmNet)
    requires Build(c) == Ok(n)
    requires c.numResBlocks == 0 && |c.channelMult| >= 1
    ensures n.midChannels == c.modelChannels
    ensures |n.outputBlocks| > 0 && n.outputBlocks[0].inChannels == 2 * c.modelChannels
  {
    var ch := c.modelChannels;
    var outs := UpOuts(ch, c.channelMult, 0);
    var input := InputLevels(c, 0, ch, 1);
    assert |outs| == |c.channelMult| by { UpOutsShape(ch, c.channelMult, 0); }
    assert input.ch == ch && input.pushes == Repeat(ch, |c.channelMult| - 1) by {
      InputPushesNoResBlocks(c, 0, ch, 1);
    }
    assert && n.midChannels == input.ch && n.skipWidths == [ch] + input.pushes
           && PopChain(ch, n.skipWidths, outs).Ok?
           && n.outputBlocks == PopChain(ch, n.skipWidths, outs).value.blocks by {
      BuildFields(c, n);
    }
    assert n.skipWidths[|n.skipWidths| - 1] == ch;
    PopChainPops(ch, n.skipWidths, outs);
  }

  /** The output head's `GroupNorm` and convolution are sized for
      `model_channels` (lines 816-820) while the last output block writes
      `model_channels * channel_mult[0]`: they agree exactly when
      `channel_mult[0] == 1` (or `model_channels == 0`), which the
      multipliers `__init__` derives always satisfy. */
  lemma OutputHeadMatches(c: LdmConfig, n: LdmNet)
    requires Build(c) == Ok(n)
    requires c.numResBlocks >= 1 && |c.channelMult| >= 1
    ensures n.normChannels == c.modelChannels
    ensures n.finalChannels == n.normChannels <==> c.channelMult[0] == 1 || c.modelChannels == 0
  {
    BuildWidths(c, n);
    UnitFactor(c.modelChannels, c.channelMult[0]);
  }

  /** Attention placement mirrors: output level `i` is built with the same
      `ds == 2^i` as input level `i`, and `ds` returns to 1. */
  lemma AttentionMirror(c: LdmConfig, n: LdmNet)
    requires Build(c) == Ok(n)
    requires |c.channelMult| >= 1
    ensures var L := |c.channelMult|;
      && |n.input.levelDs| == L && |n.outputDs| == L
      && (forall i :: 0 <= i < L ==> n.input.levelDs[i] == Pow2(i))
      && (forall i :: 0 <= i < L ==> n.outputDs[L - 1 - i] == Pow2(i))
      && n.finalDs == 1
  {
    BuildFields(c, n);
    BuildDs(c, n);
    DsMirror(c);
  }

  /** The ds bookkeeping `Build` records is that of the input and output loops. */
  lemma BuildDs(c: LdmConfig, n: LdmNet)
    requires Build(c) == Ok(n)
    requires |c.channelMult| >= 1
    ensures var input := InputLevels(c, 0, c.modelChannels, 1);
      var ds := OutputDs(input.ds, |c.channelMult| - 1);
      n.input == input && n.outputDs == ds.0 && n.finalDs == ds.1
  {
  }

  lemma DsMirror(c: LdmConfig)
    requires |c.channelMult| >= 1
    ensures var L := |c.channelMult|;
      var input := InputLevels(c, 0, c.modelChannels, 1);
      var ds := OutputDs(input.ds, L - 1);
      && (forall i :: 0 <= i < L ==> input.levelDs[i] == Pow2(i))
      && (forall i :: 0 <= i < L ==> ds.0[L - 1 - i] == Pow2(i))
      && ds.1 == 1
  {
    var L := |c.channelMult|;
    assert InputLevels(c, 0, c.modelChannels, 1) == InputLevels(c, 0, c.modelChannels, Pow2(0));
    InputDs(c, 0, c.modelChannels);
    OutputDsHalves(L - 1);
  }
}

=== FILE: legacy.dfy ===
/** The legacy builders are driven by a base width and per-level multipliers;
    `UNetUnconditionalModel.__init__` derives both from `block_channels`
    (unet_unconditional.py, lines 303-304 for the LDM builder and 329-330
    for the DDPM builder, which first rebuilds `block_channels` from its own
    `ch` and `ch_mult` at line 325): the base is `block_channels[0]` and
    each multiplier is `block_channels[i] // block_channels[0]`. */
module LegacyConfig {
  import opened Errors

  /** `[x // block_channels[0] for x in block_channels]`, with the errors
      Python raises: indexing an empty list, dividing by zero. The widths
      are natural numbers, so floor division is Dafny's `/`. */
  function LegacyMult(bc: seq<nat>): (r: Result<seq<nat>>)
    ensures bc == [] ==> r == Err(IndexError)
    ensures bc != [] && bc[0] == 0 ==> r == Err(ZeroDivisionError)
    ensures r.Ok? <==> bc != [] && bc[0] > 0
    ensures r.Ok? ==> |r.value| == |bc| && r.value[0] == 1
    ensures r.Ok? ==> forall i :: 0 <= i < |bc| ==>
      bc[0] * r.value[i] <= bc[i] < bc[0] * (r.value[i] + 1)
  {
    if bc == [] then Err(IndexError)
    else if bc[0] == 0 then Err(ZeroDivisionError)
    else
      var m := seq(|bc|, i requires 0 <= i < |bc| => bc[i] / bc[0]);
      assert forall i :: 0 <= i < |bc| ==> bc[0] * m[i] <= bc[i] < bc[0] * (m[i] + 1) by {
        forall i | 0 <= i < |bc| ensures bc[0] * m[i] <= bc[i] < bc[0] * (m[i] + 1) {
          FloorDiv(bc[i], bc[0]);
        }
      }
      Ok(m)
  }

  lemma FloorDiv(x: nat, d: nat)
    requires d > 0
    ensures d * (x / d) <= x < d * (x / d + 1)
  {
  }

  /** The legacy builders rebuild exactly the widths of `block_channels`
      if and only if every width is a multiple of the first; otherwise the
      rounded-down multiplier gives a narrower level. */
  lemma LegacyWidthsExact(bc: seq<nat>)
    requires LegacyMult(bc).Ok?
    ensures var m := LegacyMult(bc).value;
      (forall i :: 0 <= i < |bc| ==> bc[0] * m[i] == bc[i]) <==> (forall i :: 0 <= i < |bc| ==> bc[i] % bc[0] == 0)
  {
    var m := LegacyMult(bc).value;
    forall i | 0 <= i < |bc|
      ensures bc[0] * m[i] == bc[i] <==> bc[i] % bc[0] == 0
    {
      assert m[i] == bc[i] / bc[0];
      DivMod(bc[i], bc[0]);
    }
  }

  lemma DivMod(x: nat, d: nat)
    requires d > 0
    ensures d * (x / d) == x <==> x % d == 0
  {
    assert x == d * (x / d) + x % d;
  }
}

=== FILE: network.dfy ===
/** The block graph of `__init__` and the skip-buffer traffic of `forward`
    taken together (unet_unconditional.py, lines 179-289 and 395-418).

    How many skip tensors a down block emits is decided inside the block
    classes, which are not part of this model. It is an assumption here,
    the one the legacy builders spell out explicitly: one tensor per
    residual layer, plus one for the downsampler when the block has one. */
module Network {
  import opened Errors
  import opened Seqs
  import opened Schedule
  import opened SkipBuffer

  /** The assumed number of skip tensors a down block emits. */
  function EmitCount(d: DownSpec): nat
  {
    d.numLayers + (if d.addDownsample then 1 else 0)
  }

  function EmitCounts(ds: seq<DownSpec>): (r: seq<nat>)
    ensures |r| == |ds| && forall j :: 0 <= j < |ds| ==> r[j] == EmitCount(ds[j])
  {
    if ds == [] then [] else [EmitCount(ds[0])] + EmitCounts(ds[1..])
  }

  /** `len(upsample_block.resnets)` for each up block: its layer count. */
  function ResnetCounts(us: seq<UpSpec>): (r: seq<nat>)
    ensures |r| == |us| && forall j :: 0 <= j < |us| ==> r[j] == us[j].numLayers
  {
    if us == [] then [] else [us[0].numLayers] + ResnetCounts(us[1..])
  }

  /** Down blocks of `r` layers that all downsample except the last emit
      `n*r + (n-1)` skip tensors together. */
  lemma {:induction false} EmitTotal(ds: seq<DownSpec>, r: nat)
    requires |ds| > 0
    requires forall j :: 0 <= j < |ds| ==> ds[j].numLayers == r
    requires forall j :: 0 <= j < |ds| ==> (ds[j].addDownsample <==> j != |ds| - 1)
    ensures Sum(EmitCounts(ds)) == |ds| * r + (|ds| - 1)
  {
    if |ds| == 1 {
      assert EmitCounts(ds)[1..] == [];
    } else {
      EmitTotal(ds[1..], r);
      assert EmitCounts(ds)[1..] == EmitCounts(ds[1..]);
      assert |ds| * r == r + (|ds| - 1) * r;
    }
  }

  lemma Distribute(l: nat, r: nat)
    requires l > 0
    ensures (r + 1) * l == l * (r + 1) == 1 + l * r + (l - 1)
  {
  }

  /** The layer counts and resample flags a built graph gives its blocks. */
  lemma BlockCounts(cfg: UNetConfig, g: Graph)
    requires Build(cfg) == Ok(g)
    ensures |cfg.blockChannels| > 0
    ensures |g.down| == |cfg.downBlockTypes| && |g.up| == |cfg.upBlockTypes|
    ensures forall j :: 0 <= j < |g.down| ==>
      g.down[j].numLayers == cfg.numResBlocks && (g.down[j].addDownsample <==> j != |cfg.blockChannels| - 1)
    ensures forall j :: 0 <= j < |g.up| ==> g.up[j].numLayers == cfg.numResBlocks + 1
  {
    assert WellBuilt(cfg, g);
    var temb := 4 * cfg.blockChannels[0];
    forall j | 0 <= j < |g.down|
      ensures g.down[j].numLayers == cfg.numResBlocks && (g.down[j].addDownsample <==> j != |cfg.blockChannels| - 1)
    {
      assert IsDownSpecAt(cfg, temb, j, g.down[j]);
    }
    forall j | 0 <= j < |g.up|
      ensures g.up[j].numLayers == cfg.numResBlocks + 1
    {
      assert IsUpSpecAt(cfg, temb, j, g.up[j]);
    }
  }

  /** With one down and one up block per level, `L` levels and `R` residual
      blocks per level, the down pass leaves `1 + L*R + (L-1)` tensors in
      the buffer (the `conv_in` output, one per residual layer, one per
      downsampler) and the up blocks take `L*(R+1)`: the same number. */
  lemma SkipCountsBalance(cfg: UNetConfig, g: Graph)
    requires Build(cfg) == Ok(g)
    requires |cfg.downBlockTypes| == |cfg.upBlockTypes| == |cfg.blockChannels|
    ensures var L := |cfg.blockChannels|; var R := cfg.numResBlocks;
      && 1 + Sum(EmitCounts(g.down)) == 1 + L * R + (L - 1)
      && Sum(ResnetCounts(g.up)) == L * (R + 1)
      && 1 + Sum(EmitCounts(g.down)) == Sum(ResnetCounts(g.up))
  {
    var L := |cfg.blockChannels|;
    var R := cfg.numResBlocks;
    BlockCounts(cfg, g);
    EmitTotal(g.down, R);
    assert ResnetCounts(g.up) == Repeat(R + 1, L);
    SumRepeat(R + 1, L);
    Distribute(L, R);
  }

  /** A whole forward call, under the emission assumption: the buffer ends
      empty, every up block receives exactly `len(resnets)` tensors, namely
      the batch just below what the deeper up blocks took, and the `conv_in`
      output is the first tensor the outermost up block receives. */
  lemma ForwardDrainsSkipBuffer<T>(cfg: UNetConfig, g: Graph, x0: T, emits: seq<seq<T>>)
    requires Build(cfg) == Ok(g)
    requires |cfg.downBlockTypes| == |cfg.upBlockTypes| == |cfg.blockChannels|
    requires |emits| == |g.down|
    requires forall j :: 0 <= j < |emits| ==> |emits[j]| == EmitCount(g.down[j])
    ensures Taken(ResnetCounts(g.up), |g.up|) == |DownPass(x0, emits)|
    ensures var counts := ResnetCounts(g.up);
      var (received, left) := Forward(x0, emits, counts);
      && left == []
      && |received| == |g.up|
      && (forall j :: 0 <= j < |g.up| ==> |received[j]| == g.up[j].numLayers)
      && (forall j :: 0 <= j < |g.up| ==> received[j] == Batch(DownPass(x0, emits), counts, j))
      && received[|received| - 1][0] == x0
  {
    SkipCountsBalance(cfg, g);
    BlockCounts(cfg, g);
    assert Lengths(emits) == EmitCounts(g.down);
    ForwardBalanced(x0, emits, ResnetCounts(g.up));
  }

  /** The score-SDE configuration replaces the down-block tags by exactly
      four, so a width list of one to three levels runs off its end at
      `block_channels[i]`. */
  lemma SdeNeedsFourLevels(cfg: UNetConfig, a: SdeArgs)
    requires 0 < |a.chMult| < 4
    ensures Build(ApplySde(cfg, a)) == Err(IndexError)
  {
  }

  /** With more than four levels, the score-SDE configuration still builds,
      with only its four down blocks: nothing compares the tag lists with
      `block_channels`. */
  lemma SdeManyLevelsBuild(cfg: UNetConfig, a: SdeArgs)
    requires |a.chMult| > 4 && |cfg.upBlockTypes| <= |a.chMult|
    ensures Build(ApplySde(cfg, a)).Ok?
    ensures var g := Build(ApplySde(cfg, a)).value;
      && |g.down| == 4
      && g.down[3].outChannels == a.nf * a.chMult[3]
      && g.midChannels == a.nf * a.chMult[|a.chMult| - 1]
  {
    var c := ApplySde(cfg, a);
    var g := Build(c).value;
    assert WellBuilt(c, g);
    assert IsDownSpecAt(c, 4 * c.blockChannels[0], 3, g.down[3]);
  }

  /** As many down as up tags, but fewer than widths: every down block
      downsamples, since none is at the last level, so each emits `R+1`
      tensors, and each up block takes `R+1`. */
  lemma ShortTagCounts(cfg: UNetConfig, g: Graph)
    requires Build(cfg) == Ok(g)
    requires |cfg.downBlockTypes| == |cfg.upBlockTypes| < |cfg.blockChannels|
    ensures EmitCounts(g.down) == ResnetCounts(g.up) == Repeat(cfg.numResBlocks + 1, |g.up|)
  {
    BlockCounts(cfg, g);
  }

  /** With those counts the down pass pushes `1 + n*(R+1)` tensors and the
      up blocks take `n*(R+1)`: the `conv_in` output is never consumed and
      stays behind in the skip tuple. */
  lemma ShortTagsLeaveConvIn<T>(cfg: UNetConfig, g: Graph, x0: T, emits: seq<seq<T>>)
    requires Build(cfg) == Ok(g)
    requires |cfg.downBlockTypes| == |cfg.upBlockTypes| < |cfg.blockChannels|
    requires |emits| == |g.down|
    requires forall j :: 0 <= j < |emits| ==> |emits[j]| == EmitCount(g.down[j])
    ensures Forward(x0, emits, ResnetCounts(g.up)).1 == [x0]
  {
    var counts := ResnetCounts(g.up);
    ShortTagCounts(cfg, g);
    assert Lengths(emits) == EmitCounts(g.down) == counts;
    assert counts[..|counts|] == counts;
    LeavesFirst(DownPass(x0, emits), counts);
  }

  /** The score-SDE graph with more than four levels, under the default four
      up tags: the `conv_in` output stays behind in the skip tuple. */
  lemma SdeManyLevelsLeaveConvIn<T>(cfg: UNetConfig, a: SdeArgs, g: Graph, x0: T, emits: seq<seq<T>>)
    requires Build(ApplySde(cfg, a)) == Ok(g)
    requires |a.chMult| > 4 && |cfg.upBlockTypes| == 4
    requires |emits| == |g.down|
    requires forall j :: 0 <= j < |emits| ==> |emits[j]| == EmitCount(g.down[j])
    ensures Forward(x0, emits, ResnetCounts(g.up)).1 == [x0]
  {
    ShortTagsLeaveConvIn(ApplySde(cfg, a), g, x0, emits);
  }

  /** Up blocks that take one tensor fewer than the buffer holds leave
      exactly its first entry. */
  lemma LeavesFirst<T>(buf: seq<T>, counts: seq<nat>)
    requires forall j :: 0 <= j < |counts| ==> counts[j] >= 1
    requires Taken(counts, |counts|) + 1 == |buf|
    ensures UpPass(buf, counts).1 == [buf[0]]
  {
    UpPassTakesSlices(buf, counts);
  }

  /** Under `sde` the widths are `nf * ch_mult[k]`, so the Fourier
      projection's `2 * nf` features reach a `linear_1` built for
      `2 * nf * ch_mult[0]`: the two agree exactly when `ch_mult[0] == 1`
      (or `nf == 0`). */
  lemma SdeTimeStepsFeedEmbedding(cfg: UNetConfig, a: SdeArgs, g: Graph)
    requires Build(ApplySde(cfg, a)) == Ok(g)
    ensures ProjectionWidth(g.timeSteps) == Some(g.time.inputDim) <==> a.nf == 0 || a.chMult[0] == 1
  {
    TimeStepsFeedEmbedding(ApplySde(cfg, a), g);
    UnitFactor(a.nf, a.chMult[0]);
  }
}

=== FILE: schedule.dfy ===
/** The block graph that `UNetUnconditionalModel.__init__` builds
    (unet_unconditional.py, lines 179-289), abstracted to channel widths,
    layer counts and resample flags. Block-type tags are carried through
    uninterpreted: the factories that resolve them are not part of this model. */
module Schedule {
  import opened Errors
  import opened Seqs

  /** The constructor arguments that shape the block graph. `nf` is the
      score-SDE base width; the Fourier projection reads it too (line 206),
      and it defaults to `None`. */
  datatype UNetConfig = UNetConfig(
    blockChannels: seq<nat>,
    downBlockTypes: seq<string>,
    upBlockTypes: seq<string>,
    numResBlocks: nat,
    inChannels: nat,
    outChannels: nat,
    timeEmbeddingType: string,
    timeEmbeddingActFn: Option<string>,
    nf: Option<nat>)

  /** The score-SDE arguments that replace part of the configuration when
      `sde` is set (lines 179-192). Line 181 multiplies by `nf`, so under
      `sde` it is a number, and the configuration's `nf` becomes it. */
  datatype SdeArgs = SdeArgs(nf: nat, chMult: seq<nat>, numChannels: nat)

  /** A convolution, by its input and output widths. */
  datatype Conv = Conv(inChannels: nat, outChannels: nat)

  /** The arguments `get_down_block` receives. */
  datatype DownSpec = DownSpec(
    blockType: string, numLayers: nat, inChannels: nat, outChannels: nat,
    tembChannels: nat, addDownsample: bool)

  /** The arguments `get_up_block` receives. */
  datatype UpSpec = UpSpec(
    blockType: string, numLayers: nat, inChannels: nat, outChannels: nat,
    prevOutputChannels: nat, tembChannels: nat, addUpsample: bool)

  /** The module `time_steps` that turns timesteps into features, by its
      constructor arguments (lines 205-210): a Gaussian Fourier projection
      of `embedding_size = nf`, or the sinusoidal `Timesteps` of
      `block_channels[0]` channels. */
  datatype Projection =
    | FourierProjection(embeddingSize: Option<nat>)
    | SinusoidalProjection(numChannels: nat)

  /** The width a projection writes, when it can be built at all. The
      classes live in `embeddings.py`, which is not part of this model:
      a Gaussian Fourier projection concatenates the sine and cosine of an
      `embedding_size`-wide projection, and cannot be built with
      `embedding_size = None`; `Timesteps` writes its `num_channels`. */
  function ProjectionWidth(p: Projection): Option<nat>
  {
    match p
    case FourierProjection(size) => if size.Some? then Some(2 * size.value) else None
    case SinusoidalProjection(n) => Some(n)
  }

  /** The timestep MLP: `linear_1` maps `inputDim` to `embedDim`, an optional
      SiLU follows, `linear_2` maps `embedDim` to itself. */
  datatype TimeSpec = TimeSpec(inputDim: nat, embedDim: nat, hasActivation: bool)

  /** The whole block graph. */
  datatype Graph = Graph(
    convIn: Conv,
    timeSteps: Projection,
    time: TimeSpec,
    down: seq<DownSpec>,
    midChannels: nat,
    up: seq<UpSpec>,
    normChannels: nat,
    convOut: Conv)

  /** The down-block tags the SDE configuration forces (lines 187-192). */
  const SdeDownBlockTypes: seq<string> :=
    ["UNetResSkipDownBlock2D", "UNetResAttnSkipDownBlock2D", "UNetResSkipDownBlock2D", "UNetResSkipDownBlock2D"]

  /** The configuration actually used when `sde` is set: widths become
      `nf * m` for each multiplier, input and output widths become
      `num_channels`, the embedding becomes "fourier" without activation,
      and the down-block tags are replaced. */
  function ApplySde(cfg: UNetConfig, a: SdeArgs): (r: UNetConfig)
    ensures |r.blockChannels| == |a.chMult|
    ensures forall k :: 0 <= k < |a.chMult| ==> r.blockChannels[k] == a.nf * a.chMult[k]
    ensures r.inChannels == r.outChannels == a.numChannels
    ensures r.timeEmbeddingType == "fourier" && r.timeEmbeddingActFn == None
    ensures r.downBlockTypes == SdeDownBlockTypes
    ensures r.upBlockTypes == cfg.upBlockTypes && r.numResBlocks == cfg.numResBlocks
    ensures r.nf == Some(a.nf)
  {
    cfg.(blockChannels := Scale(a.nf, a.chMult),
         inChannels := a.numChannels, outChannels := a.numChannels,
         timeEmbeddingType := "fourier", timeEmbeddingActFn := None,
         downBlockTypes := SdeDownBlockTypes, nf := Some(a.nf))
  }

  /** `[nf * x for x in ch_mult]`. */
  function Scale(nf: nat, mult: seq<nat>): (r: seq<nat>)
    ensures |r| == |mult|
    ensures forall k :: 0 <= k < |mult| ==> r[k] == nf * mult[k]
  {
    if mult == [] then [] else [nf * mult[0]] + Scale(nf, mult[1..])
  }

  /** The width of the timestep embedding that enters the MLP (lines 205-210).
      Any other embedding type leaves `timestep_input_dim` unassigned, so its
      use on line 212 raises. */
  function TimestepInputDim(embeddingType: string, base: nat): (r: Result<nat>)
    ensures r.Ok? <==> embeddingType == "fourier" || embeddingType == "positional"
    ensures r.Err? ==> r.error == UnboundLocalError
    ensures embeddingType == "fourier" ==> r == Ok(2 * base)
    ensures embeddingType == "positional" ==> r == Ok(base)
  {
    if embeddingType == "fourier" then Ok(2 * base)
    else if embeddingType == "positional" then Ok(base)
    else Err(UnboundLocalError)
  }

  /** The index of the previous level, or 0 at the first. */
  function PrevIndex(i: nat): nat
  {
    if i == 0 then 0 else i - 1
  }

  /** Down block `i` as the closed-form schedule describes it: it reads the
      previous level's width (level 0 reads its own) and writes level `i`'s,
      and only the last level keeps its resolution. */
  predicate IsDownSpecAt(cfg: UNetConfig, temb: nat, i: nat, d: DownSpec)
    requires i < |cfg.downBlockTypes| && i < |cfg.blockChannels|
  {
    d == DownSpec(cfg.downBlockTypes[i], cfg.numResBlocks,
                  cfg.blockChannels[PrevIndex(i)], cfg.blockChannels[i],
                  temb, i != |cfg.blockChannels| - 1)
  }

  /** The down loop (lines 219-237) from iteration `i` on, carrying the
      previous iteration's `output_channel`. Reading `block_channels[i]`
      past its end raises. */
  function DownFrom(cfg: UNetConfig, temb: nat, i: nat, prevOut: nat): (r: Result<seq<DownSpec>>)
    requires |cfg.blockChannels| > 0
    requires i <= |cfg.downBlockTypes| && i <= |cfg.blockChannels|
    requires prevOut == cfg.blockChannels[PrevIndex(i)]
    decreases |cfg.downBlockTypes| - i
    ensures r.Ok? <==> |cfg.downBlockTypes| <= |cfg.blockChannels|
    ensures r.Err? ==> r.error == IndexError
    ensures r.Ok? ==> |r.value| == |cfg.downBlockTypes| - i
    ensures r.Ok? ==> forall k :: 0 <= k < |r.value| ==> IsDownSpecAt(cfg, temb, i + k, r.value[k])
  {
    if i == |cfg.downBlockTypes| then Ok([])
    else if i >= |cfg.blockChannels| then Err(IndexError)
    else
      var outCh := cfg.blockChannels[i];
      var isFinal := i == |cfg.blockChannels| - 1;
      var d := DownSpec(cfg.downBlockTypes[i], cfg.numResBlocks, prevOut, outCh, temb, !isFinal);
      var rest :- DownFrom(cfg, temb, i + 1, outCh);
      Ok([d] + rest)
  }

  /** Up block `i` as the closed-form schedule describes it, with
      `rev = reversed(block_channels)`: it writes `rev[i]`, reads the skip
      width `rev[min(i+1, L-1)]`, follows an output of width
      `rev[max(i-1, 0)]`, runs one more layer than a down block, and only
      the last keeps its resolution. */
  predicate IsUpSpecAt(cfg: UNetConfig, temb: nat, i: nat, u: UpSpec)
    requires i < |cfg.upBlockTypes| && i < |cfg.blockChannels|
  {
    var L := |cfg.blockChannels|;
    var rev := Reverse(cfg.blockChannels);
    u == UpSpec(cfg.upBlockTypes[i], cfg.numResBlocks + 1,
                rev[if i + 1 < L - 1 then i + 1 else L - 1], rev[i],
                rev[PrevIndex(i)], temb, i != L - 1)
  }

  /** The up loop (lines 262-284) from iteration `i` on, carrying the
      previous iteration's `output_channel`. */
  function UpFrom(cfg: UNetConfig, rev: seq<nat>, temb: nat, i: nat, prevOut: nat): (r: Result<seq<UpSpec>>)
    requires rev == Reverse(cfg.blockChannels) && |rev| > 0
    requires i <= |cfg.upBlockTypes| && i <= |cfg.blockChannels|
    requires prevOut == rev[PrevIndex(i)]
    decreases |cfg.upBlockTypes| - i
    ensures r.Ok? <==> |cfg.upBlockTypes| <= |cfg.blockChannels|
    ensures r.Err? ==> r.error == IndexError
    ensures r.Ok? ==> |r.value| == |cfg.upBlockTypes| - i
    ensures r.Ok? ==> forall k :: 0 <= k < |r.value| ==> IsUpSpecAt(cfg, temb, i + k, r.value[k])
  {
    var L := |cfg.blockChannels|;
    if i == |cfg.upBlockTypes| then Ok([])
    else if i >= |rev| then Err(IndexError)
    else
      var outCh := rev[i];
      var inCh := rev[if i + 1 < L - 1 then i + 1 else L - 1];
      var isFinal := i == L - 1;
      var u := UpSpec(cfg.upBlockTypes[i], cfg.numResBlocks + 1, inCh, outCh, prevOut, temb, !isFinal);
      assert IsUpSpecAt(cfg, temb, i, u);
      var rest :- UpFrom(cfg, rev, temb, i + 1, outCh);
      Ok([u] + rest)
  }

  /** The block graph of `__init__` (lines 197-289) for an already effective
      configuration. An empty width list fails at `block_channels[0]`. */
  function Build(cfg: UNetConfig): (r: Result<Graph>)
    ensures r.Ok? <==>
      && |cfg.blockChannels| > 0
      && (cfg.timeEmbeddingType == "fourier" || cfg.timeEmbeddingType == "positional")
      && |cfg.downBlockTypes| <= |cfg.blockChannels|
      && |cfg.upBlockTypes| <= |cfg.blockChannels|
    ensures |cfg.blockChannels| == 0 ==> r == Err(IndexError)
    ensures |cfg.blockChannels| > 0 && cfg.timeEmbeddingType != "fourier" && cfg.timeEmbeddingType != "positional" ==>
      r == Err(UnboundLocalError)
    ensures r.Ok? ==> WellBuilt(cfg, r.value)
  {
    var bc := cfg.blockChannels;
    if |bc| == 0 then Err(IndexError)
    else
      var temb := bc[0] * 4;
      var tin :- TimestepInputDim(cfg.timeEmbeddingType, bc[0]);
      var steps := if cfg.timeEmbeddingType == "fourier" then FourierProjection(cfg.nf) else SinusoidalProjection(bc[0]);
      var time := TimeSpec(tin, temb, cfg.timeEmbeddingActFn == Some("silu"));
      var down :- DownFrom(cfg, temb, 0, bc[0]);
      var rev := Reverse(bc);
      var up :- UpFrom(cfg, rev, temb, 0, rev[0]);
      Ok(Graph(Conv(cfg.inChannels, bc[0]), steps, time, down, bc[|bc| - 1], up, bc[0], Conv(bc[0], cfg.outChannels)))
  }

  /** Everything the closed-form schedule promises about a built graph. */
  predicate WellBuilt(cfg: UNetConfig, g: Graph)
  {
    var bc := cfg.blockChannels;
    && |bc| > 0
    && |g.down| == |cfg.downBlockTypes| <= |bc|
    && |g.up| == |cfg.upBlockTypes| <= |bc|
    && g.convIn == Conv(cfg.inChannels, bc[0])
    && g.timeSteps == (if cfg.timeEmbeddingType == "fourier" then FourierProjection(cfg.nf) else SinusoidalProjection(bc[0]))
    && g.time.embedDim == 4 * bc[0]
    && g.time.inputDim == (if cfg.timeEmbeddingType == "fourier" then 2 * bc[0] else bc[0])
    && (g.time.hasActivation <==> cfg.timeEmbeddingActFn == Some("silu"))
    && (forall k :: 0 <= k < |g.down| ==> IsDownSpecAt(cfg, 4 * bc[0], k, g.down[k]))
    && g.midChannels == bc[|bc| - 1]
    && (forall k :: 0 <= k < |g.up| ==> IsUpSpecAt(cfg, 4 * bc[0], k, g.up[k]))
    && g.normChannels == bc[0]
    && g.convOut == Conv(bc[0], cfg.outChannels)
  }

  /** `linear_1` is built for `timestep_input_dim` (line 212), which lines
      207 and 210 fix independently of the `time_steps` module that feeds
      it. The sinusoidal projection writes exactly that width; the Fourier
      projection does so exactly when `nf == block_channels[0]`. */
  lemma TimeStepsFeedEmbedding(cfg: UNetConfig, g: Graph)
    requires Build(cfg) == Ok(g)
    ensures ProjectionWidth(g.timeSteps) == Some(g.time.inputDim)
        <==> cfg.timeEmbeddingType == "positional" || cfg.nf == Some(cfg.blockChannels[0])
  {
    assert WellBuilt(cfg, g);
  }

  /** Each down block reads what the block before it writes; the first reads
      what `conv_in` writes; the last writes what the mid block reads. */
  lemma DownPathChains(cfg: UNetConfig, g: Graph)
    requires Build(cfg) == Ok(g)
    ensures |g.down| > 0 ==> g.down[0].inChannels == g.convIn.outChannels
    ensures forall k :: 0 < k < |g.down| ==> g.down[k].inChannels == g.down[k - 1].outChannels
    ensures |g.down| == |cfg.blockChannels| ==> g.down[|g.down| - 1].outChannels == g.midChannels
  {
    assert WellBuilt(cfg, g);
    forall k | 0 < k < |g.down|
      ensures g.down[k].inChannels == g.down[k - 1].outChannels
    {
      assert IsDownSpecAt(cfg, 4 * cfg.blockChannels[0], k, g.down[k]);
      assert IsDownSpecAt(cfg, 4 * cfg.blockChannels[0], k - 1, g.down[k - 1]);
    }
    if |g.down| > 0 {
      assert IsDownSpecAt(cfg, 4 * cfg.blockChannels[0], 0, g.down[0]);
      assert IsDownSpecAt(cfg, 4 * cfg.blockChannels[0], |g.down| - 1, g.down[|g.down| - 1]);
    }
  }

  /** Fewer down tags than widths still build (nothing checks the counts),
      and then the last down block writes the width of its own level, not
      the deepest width the mid block reads: the two agree only when those
      widths happen to be equal. */
  lemma ShortDownPath(cfg: UNetConfig, g: Graph)
    requires Build(cfg) == Ok(g)
    requires 0 < |cfg.downBlockTypes| < |cfg.blockChannels|
    ensures var last := |g.down| - 1;
      && last == |cfg.downBlockTypes| - 1
      && g.down[last].outChannels == cfg.blockChannels[last]
      && g.midChannels == cfg.blockChannels[|cfg.blockChannels| - 1]
      && g.down[last].addDownsample
      && (g.down[last].outChannels == g.midChannels
          <==> cfg.blockChannels[last] == cfg.blockChannels[|cfg.blockChannels| - 1])
  {
    assert WellBuilt(cfg, g);
    assert IsDownSpecAt(cfg, 4 * cfg.blockChannels[0], |g.down| - 1, g.down[|g.down| - 1]);
  }

  /** Each up block follows the output of the block before it, the first
      follows the mid block, and the last writes the width that the output
      normalisation and `conv_out` read. */
  lemma UpPathChains(cfg: UNetConfig, g: Graph)
    requires Build(cfg) == Ok(g)
    ensures |g.up| > 0 ==> g.up[0].prevOutputChannels == g.midChannels
    ensures forall k :: 0 < k < |g.up| ==> g.up[k].prevOutputChannels == g.up[k - 1].outChannels
    ensures |g.up| == |cfg.blockChannels| ==>
      g.up[|g.up| - 1].outChannels == g.normChannels == g.convOut.inChannels
  {
    assert WellBuilt(cfg, g);
    var rev := Reverse(cfg.blockChannels);
    forall k | 0 < k < |g.up|
      ensures g.up[k].prevOutputChannels == g.up[k - 1].outChannels
    {
      assert IsUpSpecAt(cfg, 4 * cfg.blockChannels[0], k, g.up[k]);
      assert IsUpSpecAt(cfg, 4 * cfg.blockChannels[0], k - 1, g.up[k - 1]);
    }
    if |g.up| > 0 {
      assert IsUpSpecAt(cfg, 4 * cfg.blockChannels[0], 0, g.up[0]);
      assert IsUpSpecAt(cfg, 4 * cfg.blockChannels[0], |g.up| - 1, g.up[|g.up| - 1]);
    }
  }

  /** With one down and one up block per level, up block `i` serves level
      `L-1-i`: it writes that level's width, and the skip width it reads is
      the width that level's down block read; it runs one layer more. */
  lemma UpMirrorsDown(cfg: UNetConfig, g: Graph)
    requires Build(cfg) == Ok(g)
    requires |cfg.downBlockTypes| == |cfg.upBlockTypes| == |cfg.blockChannels|
    ensures forall i :: 0 <= i < |g.up| ==>
      && g.up[i].outChannels == g.down[|g.down| - 1 - i].outChannels
      && g.up[i].inChannels == g.down[|g.down| - 1 - i].inChannels
      && g.up[i].numLayers == g.down[|g.down| - 1 - i].numLayers + 1
  {
    assert WellBuilt(cfg, g);
    var L, temb := |cfg.blockChannels|, 4 * cfg.blockChannels[0];
    forall i | 0 <= i < |g.up|
      ensures g.up[i].outChannels == g.down[L - 1 - i].outChannels
      ensures g.up[i].inChannels == g.down[L - 1 - i].inChannels
      ensures g.up[i].numLayers == g.down[L - 1 - i].numLayers + 1
    {
      UpSpecMirrors(cfg, temb, i, g.up[i], g.down[L - 1 - i]);
    }
  }

  /** Up block `i` and down block `L-1-i`, as the schedule describes them,
      write the same width, read the same width, and differ by one layer. */
  lemma UpSpecMirrors(cfg: UNetConfig, temb: nat, i: nat, u: UpSpec, d: DownSpec)
    requires |cfg.downBlockTypes| == |cfg.upBlockTypes| == |cfg.blockChannels|
    requires i < |cfg.blockChannels|
    requires IsUpSpecAt(cfg, temb, i, u)
    requires IsDownSpecAt(cfg, temb, |cfg.blockChannels| - 1 - i, d)
    ensures u.outChannels == d.outChannels && u.inChannels == d.inChannels
    ensures u.numLayers == d.numLayers + 1
  {
    var L, rev := |cfg.blockChannels|, Reverse(cfg.blockChannels);
    var skip := if i + 1 < L - 1 then i + 1 else L - 1;
    assert rev[i] == cfg.blockChannels[L - 1 - i] && rev[skip] == cfg.blockChannels[L - 1 - skip];
    assert L - 1 - skip == PrevIndex(L - 1 - i);
  }

  /** How many of the flags are set. */
  function CountTrue(bs: seq<bool>): nat
  {
    if bs == [] then 0 else (if bs[0] then 1 else 0) + CountTrue(bs[1..])
  }

  /** Flags set everywhere except at the last position number one fewer
      than the flags. */
  lemma {:induction false} CountAllButLast(bs: seq<bool>)
    requires |bs| > 0
    requires forall i :: 0 <= i < |bs| ==> (bs[i] <==> i != |bs| - 1)
    ensures CountTrue(bs) == |bs| - 1
  {
    if |bs| > 1 {
      CountAllButLast(bs[1..]);
    }
  }

  function DownsampleFlags(ds: seq<DownSpec>): (r: seq<bool>)
    ensures |r| == |ds| && forall i :: 0 <= i < |ds| ==> r[i] == ds[i].addDownsample
  {
    if ds == [] then [] else [ds[0].addDownsample] + DownsampleFlags(ds[1..])
  }

  function UpsampleFlags(us: seq<UpSpec>): (r: seq<bool>)
    ensures |r| == |us| && forall i :: 0 <= i < |us| ==> r[i] == us[i].addUpsample
  {
    if us == [] then [] else [us[0].addUpsample] + UpsampleFlags(us[1..])
  }

  /** With one down and one up block per level, every level but the deepest
      halves the resolution on the way down and every level but the
      outermost doubles it on the way up: L-1 of each, so an input whose
      sides divide by 2^(L-1) comes back at its own size. */
  lemma ResampleBalance(cfg: UNetConfig, g: Graph)
    requires Build(cfg) == Ok(g)
    requires |cfg.downBlockTypes| == |cfg.upBlockTypes| == |cfg.blockChannels|
    ensures CountTrue(DownsampleFlags(g.down)) == CountTrue(UpsampleFlags(g.up)) == |cfg.blockChannels| - 1
  {
    assert WellBuilt(cfg, g);
    var temb := 4 * cfg.blockChannels[0];
    forall i | 0 <= i < |g.down|
      ensures DownsampleFlags(g.down)[i] <==> i != |g.down| - 1
    {
      assert IsDownSpecAt(cfg, temb, i, g.down[i]);
    }
    forall i | 0 <= i < |g.up|
      ensures UpsampleFlags(g.up)[i] <==> i != |g.up| - 1
    {
      assert IsUpSpecAt(cfg, temb, i, g.up[i]);
    }
    CountAllButLast(DownsampleFlags(g.down));
    CountAllButLast(UpsampleFlags(g.up));
  }
}

=== FILE: sde.dfy ===
/** The channel bookkeeping of the score-SDE builder `init_for_sde`
    (unet_unconditional.py, lines 824-1068). Every module is reduced to the
    widths it reads and writes; the `hs_c` list is the skip-channel stack:
    the input convolution, every residual block and every downsampler push
    the running width `in_ch`, and every up-path residual block pops one
    width and adds it to its input. */
module SdeBuilder {
  import opened Errors
  import opened Seqs
  import opened Schedule
  import opened SkipStack
  import Combine

  /** The arguments of `init_for_sde` that decide widths; image size,
      attention resolutions, dropout, FIR options and scales do not. */
  datatype SdeConfig = SdeConfig(
    nf: nat,
    chMult: seq<nat>,
    numResBlocks: nat,
    numChannels: nat,
    progressive: string,
    progressiveInput: string,
    progressiveCombine: string,
    embeddingType: string)

  /** The three `assert`s at lines 861-863. */
  predicate OptionsValid(c: SdeConfig)
  {
    && c.progressive in ["none", "output_skip", "residual"]
    && c.progressiveInput in ["none", "input_skip", "residual"]
    && c.embeddingType in ["fourier", "positional"]
  }

  /** `combine_method`: the lower-cased combine name (line 864). */
  function CombineMethod(c: SdeConfig): string
  {
    Combine.AsciiLower(c.progressiveCombine)
  }

  /** How much the input-pyramid combiner widens the running width after a
      downsampler: twice for "input_skip" with "cat", otherwise not at all. */
  function Factor(c: SdeConfig): (f: nat)
    ensures f == 1 || f == 2
    ensures f == 2 <==> c.progressiveInput == "input_skip" && CombineMethod(c) == "cat"
  {
    if c.progressiveInput == "input_skip" && CombineMethod(c) == "cat" then 2 else 1
  }

  /** The width after a downsampler at running width `w` (lines 951-957). */
  function AfterDownsample(c: SdeConfig, w: nat): (r: nat)
    ensures r == Factor(c) * w
  {
    if c.progressiveInput == "input_skip" then Combine.WidthAfterCombine(CombineMethod(c), w) else w
  }

  /** The residual blocks of one down level: the first reads the running
      width, all of them write the level's width. */
  function LevelResBlocks(inCh: nat, w: nat, r: nat): (blocks: seq<ResIO>)
    ensures |blocks| == r
    ensures forall k :: 0 <= k < r ==> blocks[k].outChannels == w
    ensures forall k :: 0 <= k < r ==> blocks[k].inChannels == (if k == 0 then inCh else w)
  {
    if r == 0 then [] else [ResIO(inCh, w)] + Repeat(ResIO(w, w), r - 1)
  }

  /** What the down loop (lines 912-960) builds from level `i` on:
      residual blocks, the widths the downsamplers read, the input-pyramid
      combiners, the widths pushed onto `hs_c`, and the final values of the
      locals `in_ch` and `out_ch` (`None` while `out_ch` is unbound). */
  datatype DownTrace = DownTrace(
    resBlocks: seq<ResIO>,
    downsamplers: seq<nat>,
    combiners: seq<Combine.Combiner>,
    pushes: seq<nat>,
    inCh: nat,
    outCh: Option<nat>)

  /** The down loop from level `i`. `out_ch` is bound only by a residual
      block, and the downsampler reads it (`groups_out`, line 943), so with
      no residual blocks a non-final level raises `UnboundLocalError`. */
  function DownLevels(c: SdeConfig, i: nat, inCh: nat, outCh: Option<nat>): (r: Result<DownTrace>)
    requires i <= |c.chMult|
    decreases |c.chMult| - i
    ensures r.Err? ==> r.error == UnboundLocalError
    ensures r.Ok? <==> c.numResBlocks >= 1 || outCh.Some? || i + 1 >= |c.chMult|
    ensures r.Ok? && i == |c.chMult| ==> r.value == DownTrace([], [], [], [], inCh, outCh)
    ensures r.Ok? && i < |c.chMult| ==> |r.value.downsamplers| == |c.chMult| - 1 - i
  {
    if i == |c.chMult| then Ok(DownTrace([], [], [], [], inCh, outCh))
    else
      var w := c.nf * c.chMult[i];
      var r := c.numResBlocks;
      var res := LevelResBlocks(inCh, w, r);
      var inCh1 := if r == 0 then inCh else w;
      var outCh1 := if r == 0 then outCh else Some(w);
      if i == |c.chMult| - 1 then Ok(DownTrace(res, [], [], Repeat(w, r), inCh1, outCh1))
      else if outCh1.None? then Err(UnboundLocalError)
      else
        var comb := if c.progressiveInput == "input_skip"
          then [Combine.Combiner(c.numChannels, inCh1, CombineMethod(c))] else [];
        var inCh2 := AfterDownsample(c, inCh1);
        var next :- DownLevels(c, i + 1, inCh2, outCh1);
        Ok(DownTrace(res + next.resBlocks, [inCh1] + next.downsamplers, comb + next.combiners,
                     Repeat(w, r) + [inCh2] + next.pushes, next.inCh, next.outCh))
  }

  /** With at least one residual block per level, the down loop from any
      level pushes exactly the reference sequence `LevelPushes` and leaves
      `in_ch` and `out_ch` at the deepest level's width. */
  lemma {:induction false} DownLevelsPushes(c: SdeConfig, i: nat, inCh: nat, outCh: Option<nat>)
    requires c.numResBlocks >= 1 && i < |c.chMult|
    decreases |c.chMult| - i
    ensures DownLevels(c, i, inCh, outCh).Ok?
    ensures var d := DownLevels(c, i, inCh, outCh).value;
      && d.pushes == LevelPushes(c.nf, c.chMult, c.numResBlocks, Factor(c), i)
      && d.inCh == c.nf * c.chMult[|c.chMult| - 1]
      && d.outCh == Some(c.nf * c.chMult[|c.chMult| - 1])
  {
    if i < |c.chMult| - 1 {
      var w := c.nf * c.chMult[i];
      DownLevelsPushes(c, i + 1, AfterDownsample(c, w), Some(w));
    }
  }

  /** The downsampler of level `i + k` reads that level's width. */
  lemma {:induction false} DownLevelsDownsamplers(c: SdeConfig, i: nat, inCh: nat, outCh: Option<nat>)
    requires c.numResBlocks >= 1 && i < |c.chMult|
    decreases |c.chMult| - i
    ensures DownLevels(c, i, inCh, outCh).Ok?
    ensures forall k :: 0 <= k < |DownLevels(c, i, inCh, outCh).value.downsamplers| ==>
      DownLevels(c, i, inCh, outCh).value.downsamplers[k] == c.nf * c.chMult[i + k]
  {
    if i < |c.chMult| - 1 {
      var w := c.nf * c.chMult[i];
      DownLevelsDownsamplers(c, i + 1, AfterDownsample(c, w), Some(w));
      var next := DownLevels(c, i + 1, AfterDownsample(c, w), Some(w)).value;
      var d := DownLevels(c, i, inCh, outCh).value;
      assert d.downsamplers == [w] + next.downsamplers;
      forall k | 0 < k < |d.downsamplers|
        ensures d.downsamplers[k] == c.nf * c.chMult[i + k]
      {
        assert d.downsamplers[k] == next.downsamplers[k - 1];
        assert next.downsamplers[k - 1] == c.nf * c.chMult[(i + 1) + (k - 1)];
      }
    }
  }

  /** With "input_skip" each downsampler is followed by a combiner from the
      input pyramid (`num_channels` wide) into that level's width (line
      952); otherwise there are none. */
  lemma {:induction false} DownLevelsCombiners(c: SdeConfig, i: nat, inCh: nat, outCh: Option<nat>)
    requires c.numResBlocks >= 1 && i < |c.chMult|
    decreases |c.chMult| - i
    ensures DownLevels(c, i, inCh, outCh).Ok?
    ensures |DownLevels(c, i, inCh, outCh).value.combiners|
         == (if c.progressiveInput == "input_skip" then |c.chMult| - 1 - i else 0)
    ensures forall k :: 0 <= k < |DownLevels(c, i, inCh, outCh).value.combiners| ==>
      DownLevels(c, i, inCh, outCh).value.combiners[k] == Combine.Combiner(c.numChannels, c.nf * c.chMult[i + k], CombineMethod(c))
  {
    if i < |c.chMult| - 1 {
      var w := c.nf * c.chMult[i];
      DownLevelsCombiners(c, i + 1, AfterDownsample(c, w), Some(w));
      var next := DownLevels(c, i + 1, AfterDownsample(c, w), Some(w)).value;
      var d := DownLevels(c, i, inCh, outCh).value;
      if c.progressiveInput == "input_skip" {
        assert d.combiners == [Combine.Combiner(c.numChannels, w, CombineMethod(c))] + next.combiners;
        forall k | 0 < k < |d.combiners|
          ensures d.combiners[k] == Combine.Combiner(c.numChannels, c.nf * c.chMult[i + k], CombineMethod(c))
        {
          assert d.combiners[k] == next.combiners[k - 1];
          assert next.combiners[k - 1] == Combine.Combiner(c.numChannels, c.nf * c.chMult[(i + 1) + (k - 1)], CombineMethod(c));
        }
      } else {
        assert d.combiners == next.combiners;
      }
    }
  }

  /** The widths of the network `init_for_sde` builds. */
  datatype SdeNet = SdeNet(
    embedDim: nat,
    tembChannels: nat,
    convIn: Conv,
    down: DownTrace,
    skipWidths: seq<nat>,
    midChannels: nat,
    upBlocks: seq<ResIO>,
    finalChannels: nat,
    convOut: Option<Conv>)

  /** `init_for_sde` (lines 824-1068), reduced to widths. The option
      `assert`s come first, so an unknown embedding type fails there and the
      `ValueError` branch at line 878 is never reached. The up loop pops one
      width per residual block (line 1005) and the builder finally asserts
      that `hs_c` is empty (line 1062). */
  function Build(c: SdeConfig): (r: Result<SdeNet>)
    ensures r.Ok? <==> OptionsValid(c) && c.numResBlocks >= 1 && |c.chMult| >= 1
    ensures !OptionsValid(c) ==> r == Err(AssertionError)
    ensures OptionsValid(c) && (c.numResBlocks == 0 || |c.chMult| == 0) ==> r == Err(UnboundLocalError)
    ensures r.Ok? ==>
      && DownLevels(c, 0, c.nf, None).Ok?
      && var hs := [c.nf] + DownLevels(c, 0, c.nf, None).value.pushes;
      r == Assemble(c, DownLevels(c, 0, c.nf, None).value, PopChain(hs[|hs| - 1], hs, UpOuts(c.nf, c.chMult, c.numResBlocks)))
  {
    if !OptionsValid(c) then Err(AssertionError)
    else
      match DownLevels(c, 0, c.nf, None)
      case Err(e) => Err(e)
      case Ok(down) =>
        assert c.numResBlocks >= 1 && |c.chMult| >= 1 ==> down.outCh.Some? by {
          if c.numResBlocks >= 1 && |c.chMult| >= 1 {
            DownLevelsPushes(c, 0, c.nf, None);
          }
        }
        if down.outCh.None? then Err(UnboundLocalError)
        else
          var hs := [c.nf] + down.pushes;
          var outs := UpOuts(c.nf, c.chMult, c.numResBlocks);
          assert outs != [] && PopChain(hs[|hs| - 1], hs, outs).Ok? && PopChain(hs[|hs| - 1], hs, outs).value.rest == [] by {
            DownLevelsPushes(c, 0, c.nf, None);
            PushesLength(c.nf, c.chMult, c.numResBlocks, Factor(c));
            UpOutsShape(c.nf, c.chMult, c.numResBlocks);
            PopChainDrains(hs[|hs| - 1], hs, outs);
          }
          Assemble(c, down, PopChain(hs[|hs| - 1], hs, outs))
  }

  /** The up half of `init_for_sde` once the down loop has filled `hs_c`:
      pop one width per residual block, require the stack to end empty, and
      attach the output convolution. */
  function Assemble(c: SdeConfig, down: DownTrace, pops: Result<Popped>): (r: Result<SdeNet>)
    ensures r.Ok? ==>
      && pops.Ok? && pops.value.rest == []
      && r.value.down == down
      && r.value.skipWidths == [c.nf] + down.pushes
      && r.value.midChannels == r.value.skipWidths[|r.value.skipWidths| - 1]
      && r.value.upBlocks == pops.value.blocks
  {
    var hs := [c.nf] + down.pushes;
    var outs := UpOuts(c.nf, c.chMult, c.numResBlocks);
    match pops
    case Err(e) => Err(e)
    case Ok(p) =>
      if p.rest != [] || outs == [] then Err(AssertionError)
      else
        var finalCh := outs[|outs| - 1];
        var embedDim := if c.embeddingType == "fourier" then 2 * c.nf else c.nf;
        var convOut := if c.progressive == "output_skip" then None else Some(Conv(finalCh, c.numChannels));
        Ok(SdeNet(embedDim, 4 * c.nf, Conv(c.numChannels, c.nf), down, hs, hs[|hs| - 1], p.blocks, finalCh, convOut))
  }


  /** The widths of a successful build: the embedding input is `2*nf` for
      Fourier features and `nf` otherwise, the embedding MLP is `4*nf` wide,
      the middle block reads the deepest level's width and the output
      convolution reads `nf * ch_mult[0]`. */
  lemma BuildShape(c: SdeConfig, n: SdeNet)
    requires Build(c) == Ok(n)
    ensures n.embedDim == (if c.embeddingType == "fourier" then 2 * c.nf else c.nf)
    ensures n.tembChannels == 4 * c.nf
    ensures n.convIn == Conv(c.numChannels, c.nf)
    ensures n.midChannels == c.nf * c.chMult[|c.chMult| - 1]
    ensures n.finalChannels == c.nf * c.chMult[0]
    ensures n.convOut == (if c.progressive == "output_skip" then None else Some(Conv(c.nf * c.chMult[0], c.numChannels)))
  {
    var m := c.chMult;
    var R := c.numResBlocks;
    assert n.midChannels == c.nf * m[|m| - 1] by {
      BuildDown(c, n);
      DownLevelsPushes(c, 0, c.nf, None);
      LastPush(c.nf, m, R, Factor(c), 0);
    }
    assert n.finalChannels == c.nf * m[0] by {
      UpOutsShape(c.nf, m, R);
    }
  }

  /** `hs_c` holds exactly the reference pushes, and every up residual
      block reads the running width plus the width popped for it: the
      pushes in reverse. */
  lemma BuildStack(c: SdeConfig, n: SdeNet)
    requires Build(c) == Ok(n)
    ensures n.skipWidths == Pushes(c.nf, c.chMult, c.numResBlocks, Factor(c))
    ensures && |n.skipWidths| == |UpOuts(c.nf, c.chMult, c.numResBlocks)|
            && n.upBlocks == ChainBlocks(n.midChannels, Reverse(n.skipWidths), UpOuts(c.nf, c.chMult, c.numResBlocks))
  {
    var m := c.chMult;
    var outs := UpOuts(c.nf, m, c.numResBlocks);
    BuildPops(c, n);
    DownLevelsPushes(c, 0, c.nf, None);
    PushesLength(c.nf, m, c.numResBlocks, Factor(c));
    UpOutsShape(c.nf, m, c.numResBlocks);
    PopChainDrains(n.midChannels, n.skipWidths, outs);
  }

  /** The up path's residual blocks, level by level: at up level `i` the
      first `R` blocks concatenate a skip of the level's own width
      `nf * ch_mult[i]`, and the last concatenates the width the level was
      entered with (`nf` at level 0, otherwise what the downsampler of level
      `i-1` pushed, doubled by a "cat" combiner). */
  lemma UpBlocksPerLevel(c: SdeConfig, n: SdeNet)
    requires Build(c) == Ok(n)
    ensures && |UpSkips(c.nf, c.chMult, c.numResBlocks, Factor(c))| == |UpOuts(c.nf, c.chMult, c.numResBlocks)|
            && n.upBlocks
         == ChainBlocks(n.midChannels, UpSkips(c.nf, c.chMult, c.numResBlocks, Factor(c)),
                        UpOuts(c.nf, c.chMult, c.numResBlocks))
  {
    BuildShape(c, n);
    BuildStack(c, n);
    ChainBlocksMirror(c.nf, c.chMult, c.numResBlocks, Factor(c), n.midChannels);
  }

  /** `hs_c` receives `1 + L*R + (L-1)` widths and the up loop pops
      `L*(R+1)`, the same number: no `pop()` meets an empty list and the
      closing `assert not hs_c` holds. */
  lemma SkipStackDrains(c: SdeConfig, n: SdeNet)
    requires Build(c) == Ok(n)
    ensures |n.skipWidths| == 1 + |c.chMult| * c.numResBlocks + (|c.chMult| - 1)
    ensures |n.upBlocks| == |c.chMult| * (c.numResBlocks + 1) == |n.skipWidths|
    ensures && PopChain(n.midChannels, n.skipWidths, UpOuts(c.nf, c.chMult, c.numResBlocks)).Ok?
            && PopChain(n.midChannels, n.skipWidths, UpOuts(c.nf, c.chMult, c.numResBlocks)).value.rest == []
  {
    BuildStack(c, n);
    PushPopBalance(c.nf, c.chMult, c.numResBlocks, Factor(c), n.midChannels);
  }

  /** `in_ch = hs_c[-1]` before the middle block (line 972) changes
      nothing: the top of the stack is the width the down loop ends with. */
  lemma MidReadsTopOfStack(c: SdeConfig, n: SdeNet)
    requires Build(c) == Ok(n)
    ensures |n.skipWidths| > 0 && n.midChannels == n.skipWidths[|n.skipWidths| - 1] == n.down.inCh
  {
    BuildPops(c, n);
    assert n.midChannels == c.nf * c.chMult[|c.chMult| - 1] by { BuildShape(c, n); }
    assert n.down.inCh == c.nf * c.chMult[|c.chMult| - 1] by {
      BuildDown(c, n);
      DownLevelsPushes(c, 0, c.nf, None);
    }
  }

  /** With "input_skip", the combiner after the downsampler of level `k`
      maps the input pyramid (`num_channels` wide) into the level's width,
      and `Combine.forward` on matching tensors yields exactly the width the
      builder carries on: doubled for "cat", unchanged for "sum". */
  lemma CombinersMatchForward(c: SdeConfig, n: SdeNet, k: nat, x: Combine.Shape, y: Combine.Shape)
    requires Build(c) == Ok(n) && c.progressiveInput == "input_skip"
    requires Combine.KnownMethod(CombineMethod(c))
    requires k < |c.chMult| - 1
    requires x.channels == c.numChannels && y.channels == c.nf * c.chMult[k]
    requires Combine.SameExceptChannels(x, y)
    ensures && k < |n.down.combiners|
            && n.down.combiners[k] == Combine.Combiner(c.numChannels, c.nf * c.chMult[k], CombineMethod(c))
            && Combine.Forward(n.down.combiners[k], x, y) == Ok(y.(channels := AfterDownsample(c, y.channels)))
  {
    BuildDown(c, n);
    DownLevelsCombiners(c, 0, c.nf, None);
    Combine.WidthAfterCombineMatchesForward(CombineMethod(c), c.numChannels, y, x);
  }

  /** The down trace `Build` records is the down loop's, started from
      `in_ch = nf` with `out_ch` unbound. */
  lemma BuildDown(c: SdeConfig, n: SdeNet)
    requires Build(c) == Ok(n)
    ensures DownLevels(c, 0, c.nf, None).Ok? && n.down == DownLevels(c, 0, c.nf, None).value
  {
  }

  /** The stack `Build` records and what its up loop pops from it. */
  lemma BuildPops(c: SdeConfig, n: SdeNet)
    requires Build(c) == Ok(n)
    ensures DownLevels(c, 0, c.nf, None).Ok?
    ensures n.skipWidths == [c.nf] + DownLevels(c, 0, c.nf, None).value.pushes
    ensures n.midChannels == n.skipWidths[|n.skipWidths| - 1]
    ensures && PopChain(n.midChannels, n.skipWidths, UpOuts(c.nf, c.chMult, c.numResBlocks)).Ok?
            && n.upBlocks == PopChain(n.midChannels, n.skipWidths, UpOuts(c.nf, c.chMult, c.numResBlocks)).value.blocks
  {
  }
}

=== FILE: seqs.dfy ===
/** Small sequence vocabulary shared by the channel and skip-buffer models. */
module Seqs {

  /** `n` copies of `x`. */
  function Repeat<T>(x: T, n: nat): (r: seq<T>)
    ensures |r| == n
    ensures forall k :: 0 <= k < n ==> r[k] == x
  {
    if n == 0 then [] else [x] + Repeat(x, n - 1)
  }

  /** `s` back to front. */
  function Reverse<T>(s: seq<T>): (r: seq<T>)
    ensures |r| == |s|
    ensures forall k :: 0 <= k < |s| ==> r[k] == s[|s| - 1 - k]
  {
    if s == [] then [] else Reverse(s[1..]) + [s[0]]
  }

  /** The sum of a sequence of counts. */
  function Sum(s: seq<nat>): nat
  {
    if s == [] then 0 else s[0] + Sum(s[1..])
  }

  /** The concatenation of a sequence of sequences, first one first. */
  function Flatten<T>(ss: seq<seq<T>>): seq<T>
  {
    if ss == [] then [] else ss[0] + Flatten(ss[1..])
  }

  /** The concatenation of a sequence of sequences, last one first. */
  function FlattenRev<T>(ss: seq<seq<T>>): seq<T>
  {
    if ss == [] then [] else FlattenRev(ss[1..]) + ss[0]
  }

  /** The lengths of a sequence of sequences. */
  function Lengths<T>(ss: seq<seq<T>>): (r: seq<nat>)
    ensures |r| == |ss|
    ensures forall k :: 0 <= k < |ss| ==> r[k] == |ss[k]|
  {
    if ss == [] then [] else [|ss[0]|] + Lengths(ss[1..])
  }

  lemma ReverseAppend<T>(a: seq<T>, b: seq<T>)
    ensures Reverse(a + b) == Reverse(b) + Reverse(a)
  {
  }

  lemma ReverseRepeat<T>(x: T, n: nat)
    ensures Reverse(Repeat(x, n)) == Repeat(x, n)
  {
  }

  lemma RepeatAppend<T>(x: T, n: nat, m: nat)
    ensures Repeat(x, n) + Repeat(x, m) == Repeat(x, n + m)
  {
  }

  lemma {:induction false} SumAppend(a: seq<nat>, b: seq<nat>)
    ensures Sum(a + b) == Sum(a) + Sum(b)
  {
    if a == [] {
      assert a + b == b;
    } else {
      assert (a + b)[1..] == a[1..] + b;
      SumAppend(a[1..], b);
    }
  }

  lemma {:induction false} SumRepeat(x: nat, n: nat)
    ensures Sum(Repeat(x, n)) == x * n
  {
    if n > 0 {
      assert Repeat(x, n)[1..] == Repeat(x, n - 1);
      SumRepeat(x, n - 1);
    }
  }

  lemma {:induction false} FlattenLength<T>(ss: seq<seq<T>>)
    ensures |Flatten(ss)| == Sum(Lengths(ss))
  {
    if ss != [] {
      assert Lengths(ss)[1..] == Lengths(ss[1..]);
      FlattenLength(ss[1..]);
    }
  }

  lemma {:induction false} FlattenRevLength<T>(ss: seq<seq<T>>)
    ensures |FlattenRev(ss)| == Sum(Lengths(ss))
  {
    if ss != [] {
      assert Lengths(ss)[1..] == Lengths(ss[1..]);
      FlattenRevLength(ss[1..]);
    }
  }

  /** `l * (r + 1) == l * r + l`, kept apart from contexts where the
      solver would search for it among many other facts. */
  lemma MulSucc(l: nat, r: nat)
    ensures l * (r + 1) == l * r + l
  {
  }

  /** `(a + 1) * b == a * b + b` */
  lemma SuccMul(a: nat, b: nat)
    ensures (a + 1) * b == a * b + b
  {
  }

  /** `a * b == a` exactly when `b` is the unit or `a` is zero. */
  lemma UnitFactor(a: nat, b: nat)
    ensures a * b == a <==> b == 1 || a == 0
  {
    if a != 0 && a * b == a {
      assert a * b == a * 1;
    }
  }

  /** Multiplying by the same factor keeps the order. */
  lemma MulLe(a: nat, b: nat, c: nat)
    requires a <= b
    ensures a * c <= b * c
  {
  }
}

=== FILE: skip_buffer.dfy ===
/** The skip buffer of `UNetUnconditionalModel.forward` (unet_unconditional.py,
    lines 395-418). The buffer is a tuple: it starts with the `conv_in` output,
    every down block appends the `res_samples` it emits, and every up block
    slices `len(resnets)` entries off its end. Tensors are opaque values of
    type `T`; what each down block emits is a parameter of the model. */
module SkipBuffer {
  import opened Seqs

  /** Python's normalisation of a slice bound `i` against a sequence of
      length `len`: a negative bound counts from the end, and out-of-range
      bounds are clamped. */
  function SliceBound(len: nat, i: int): (k: nat)
    ensures k <= len
    ensures 0 <= i <= len ==> k == i
    ensures -(len as int) <= i < 0 ==> k == len + i
    ensures i < -(len as int) ==> k == 0
    ensures len < i ==> k == len
  {
    if i < 0 then (if len + i < 0 then 0 else len + i)
    else if i > len then len
    else i
  }

  /** `s[start:]` */
  function SliceFrom<T>(s: seq<T>, start: int): seq<T>
  {
    s[SliceBound(|s|, start)..]
  }

  /** `s[:stop]` */
  function SliceTo<T>(s: seq<T>, stop: int): seq<T>
  {
    s[..SliceBound(|s|, stop)]
  }

  /** One up block's pop (lines 415-416): `buf[-n:]` is what the block
      receives, `buf[:-n]` is what remains. The two halves always put the
      buffer back together; a block with `0 < n <= |buf|` resnets gets the
      last `n` entries in their original order. Because `-0 == 0` in Python,
      `n == 0` hands over the WHOLE buffer, and `n > |buf|` hands over
      whatever is left. */
  function PopBatch<T>(buf: seq<T>, n: nat): (r: (seq<T>, seq<T>))
    ensures r.1 + r.0 == buf
    ensures 0 < n <= |buf| ==> r.0 == buf[|buf| - n..] && r.1 == buf[..|buf| - n]
    ensures n == 0 ==> r.0 == buf && r.1 == []
    ensures n > |buf| ==> r.0 == buf && r.1 == []
  {
    (SliceFrom(buf, -(n as int)), SliceTo(buf, -(n as int)))
  }

  /** The down loop (lines 396-403): `down_block_res_samples += res_samples`
      for each down block in turn. */
  function DownFold<T>(buf: seq<T>, emits: seq<seq<T>>): (r: seq<T>)
    ensures r == buf + Flatten(emits)
    decreases |emits|
  {
    if emits == [] then buf
    else
      assert buf + Flatten(emits) == (buf + emits[0]) + Flatten(emits[1..]);
      DownFold(buf + emits[0], emits[1..])
  }

  /** The buffer after the down pass: the `conv_in` output, then every
      down block's emissions in order. */
  function DownPass<T>(x0: T, emits: seq<seq<T>>): (r: seq<T>)
    ensures |r| == 1 + Sum(Lengths(emits))
    ensures r[0] == x0
    ensures r[1..] == Flatten(emits)
  {
    FlattenLength(emits);
    DownFold([x0], emits)
  }

  /** The up loop (lines 412-418): what each up block receives, in block
      order, and what is left in the buffer afterwards. Reading the received
      batches back to front and appending them to the leftover restores the
      buffer: nothing is lost, duplicated or reordered. */
  function UpPass<T>(buf: seq<T>, counts: seq<nat>): (r: (seq<seq<T>>, seq<T>))
    ensures |r.0| == |counts|
    ensures r.1 + FlattenRev(r.0) == buf
  {
    if counts == [] then ([], buf)
    else
      var (res, rest) := PopBatch(buf, counts[0]);
      var (received, left) := UpPass(rest, counts[1..]);
      assert ([res] + received)[1..] == received;
      ([res] + received, left)
  }

  /** The skip-buffer traffic of a whole forward call. */
  function Forward<T>(x0: T, emits: seq<seq<T>>, counts: seq<nat>): (seq<seq<T>>, seq<T>)
  {
    UpPass(DownPass(x0, emits), counts)
  }

  /** How many entries the first `j` up blocks take. */
  function Taken(counts: seq<nat>, j: nat): nat
    requires j <= |counts|
  {
    Sum(counts[..j])
  }

  lemma TakenStep(counts: seq<nat>, j: nat)
    requires 0 < |counts| && j < |counts|
    ensures Taken(counts, j + 1) == counts[0] + Taken(counts[1..], j)
  {
    assert counts[..j + 1][1..] == counts[1..][..j];
  }

  lemma TakenNext(counts: seq<nat>, j: nat)
    requires j < |counts|
    ensures Taken(counts, j + 1) == Taken(counts, j) + counts[j]
  {
    assert counts[..j + 1] == counts[..j] + [counts[j]];
    SumAppend(counts[..j], [counts[j]]);
    assert [counts[j]][1..] == [];
  }

  lemma TakenMonotone(counts: seq<nat>, i: nat, k: nat)
    requires i <= k <= |counts|
    ensures Taken(counts, i) <= Taken(counts, k)
  {
    assert counts[..k] == counts[..i] + counts[i..k];
    SumAppend(counts[..i], counts[i..k]);
  }

  /** The entries up block `j` should receive: the `counts[j]` entries just
      below those that blocks `0..j-1` took. */
  function Batch<T>(buf: seq<T>, counts: seq<nat>, j: nat): seq<T>
    requires j < |counts| && Taken(counts, |counts|) <= |buf|
  {
    TakenMonotone(counts, j, j + 1);
    TakenMonotone(counts, j + 1, |counts|);
    buf[|buf| - Taken(counts, j + 1)..|buf| - Taken(counts, j)]
  }

  lemma BatchFirst<T>(buf: seq<T>, counts: seq<nat>)
    requires 0 < |counts| && Taken(counts, |counts|) <= |buf|
    ensures counts[0] <= |buf| && Batch(buf, counts, 0) == buf[|buf| - counts[0]..]
  {
    TakenNext(counts, 0);
    TakenMonotone(counts, 1, |counts|);
    assert counts[..0] == [];
  }

  /** Batches after the first are the batches of what the first block left. */
  lemma BatchShift<T>(buf: seq<T>, counts: seq<nat>, j: nat)
    requires 0 < j < |counts| && Taken(counts, |counts|) <= |buf|
    ensures counts[0] <= |buf|
    ensures Taken(counts[1..], |counts| - 1) <= |buf| - counts[0]
    ensures Batch(buf, counts, j) == Batch(buf[..|buf| - counts[0]], counts[1..], j - 1)
  {
    var n := counts[0];
    var rest := buf[..|buf| - n];
    TakenStep(counts, |counts| - 1);
    TakenStep(counts, j);
    TakenStep(counts, j - 1);
    assert counts[..|counts|] == counts;
    assert counts[1..][..|counts| - 1] == counts[1..];
    var a := Taken(counts[1..], j);
    var b := Taken(counts[1..], j - 1);
    TakenMonotone(counts[1..], j, |counts| - 1);
    TakenMonotone(counts[1..], j - 1, j);
    assert Batch(rest, counts[1..], j - 1) == rest[|rest| - a..|rest| - b];
  }

  /** When every up block has at least one resnet and together they take no
      more than the buffer holds, block `j` receives exactly its batch, in
      the batch's original order, and the untouched bottom of the buffer
      remains. */
  lemma {:induction false} UpPassTakesSlices<T>(buf: seq<T>, counts: seq<nat>)
    requires forall j :: 0 <= j < |counts| ==> counts[j] >= 1
    requires Taken(counts, |counts|) <= |buf|
    ensures UpPass(buf, counts).1 == buf[..|buf| - Taken(counts, |counts|)]
    ensures var received := UpPass(buf, counts).0;
      forall j :: 0 <= j < |received| ==> received[j] == Batch(buf, counts, j)
  {
    if counts == [] {
      assert counts[..0] == [];
    } else {
      var n := counts[0];
      TakenStep(counts, |counts| - 1);
      assert counts[..|counts|] == counts;
      assert counts[1..][..|counts| - 1] == counts[1..];
      BatchFirst(buf, counts);
      var rest := buf[..|buf| - n];
      assert PopBatch(buf, n) == (buf[|buf| - n..], rest);
      UpPassTakesSlices(rest, counts[1..]);
      var received := UpPass(buf, counts).0;
      var inner := UpPass(rest, counts[1..]).0;
      assert received == [buf[|buf| - n..]] + inner;
      forall j | 0 < j < |received|
        ensures received[j] == Batch(buf, counts, j)
      {
        BatchShift(buf, counts, j);
        assert received[j] == inner[j - 1];
      }
    }
  }

  /** With every up block taking at least one entry, the buffer ends empty
      with every block served in full exactly when the blocks take as many
      entries as the buffer holds. */
  lemma DrainsExactlyWhenBalanced<T>(buf: seq<T>, counts: seq<nat>)
    requires forall j :: 0 <= j < |counts| ==> counts[j] >= 1
    ensures
      (&& UpPass(buf, counts).1 == []
       && forall j :: 0 <= j < |counts| ==> |UpPass(buf, counts).0[j]| == counts[j])
      <==> Taken(counts, |counts|) == |buf|
  {
    var (received, left) := UpPass(buf, counts);
    assert counts[..|counts|] == counts;
    if left == [] && forall j :: 0 <= j < |counts| ==> |received[j]| == counts[j] {
      FlattenRevLength(received);
      assert Lengths(received) == counts;
    }
    if Taken(counts, |counts|) == |buf| {
      UpPassTakesSlices(buf, counts);
      forall j | 0 <= j < |counts|
        ensures |received[j]| == counts[j]
      {
        TakenNext(counts, j);
        assert received[j] == Batch(buf, counts, j);
        TakenMonotone(counts, j + 1, |counts|);
        assert |Batch(buf, counts, j)| == Taken(counts, j + 1) - Taken(counts, j);
      }
    }
  }

  /** A whole forward call whose up blocks take as many entries as the down
      pass leaves: the buffer ends empty, every up block receives exactly
      its count, namely the batch just below what the deeper blocks took,
      and the first entry pushed is the first the outermost block receives. */
  lemma ForwardBalanced<T>(x0: T, emits: seq<seq<T>>, counts: seq<nat>)
    requires forall j :: 0 <= j < |counts| ==> counts[j] >= 1
    requires |counts| > 0
    requires Sum(counts) == 1 + Sum(Lengths(emits))
    ensures Taken(counts, |counts|) == |DownPass(x0, emits)|
    ensures var (received, left) := Forward(x0, emits, counts);
      && left == []
      && |received| == |counts|
      && (forall j :: 0 <= j < |counts| ==> |received[j]| == counts[j])
      && (forall j :: 0 <= j < |counts| ==> received[j] == Batch(DownPass(x0, emits), counts, j))
      && received[|received| - 1][0] == x0
  {
    var buf := DownPass(x0, emits);
    assert counts[..|counts|] == counts;
    DrainsExactlyWhenBalanced(buf, counts);
    UpPassTakesSlices(buf, counts);
    var last := |counts| - 1;
    TakenNext(counts, last);
    assert Batch(buf, counts, last) == buf[0..Taken(counts, last + 1) - Taken(counts, last)];
  }
}

=== FILE: skip_stack.dfy ===
/** The explicit skip-channel stacks of the legacy builders in
    unet_unconditional.py: `hs_c` in `init_for_sde` (lines 910-1062) and
    `input_block_chans` in `init_for_ldm` (lines 690-782). Both record the
    width of every tensor the down path will keep for a skip connection, and
    the up path pops one width per residual block and concatenates it onto
    the running width. This module holds what the two share: the push
    sequence the down path is meant to produce, the order in which the up
    path's residual blocks write, and the pop chain itself. */
module SkipStack {
  import opened Errors
  import opened Seqs

  /** A residual block by its input and output widths. */
  datatype ResIO = ResIO(inChannels: nat, outChannels: nat)

  /** The entries levels `i..L-1` push: `r` entries of width `base*mult[j]`
      (one per residual block), then, except at the last level, one entry for
      the downsampler, whose width is `factor` times the level's width
      (`factor` is 2 where the SDE builder's "cat" combiner doubles it). */
  function LevelPushes(base: nat, mult: seq<nat>, r: nat, factor: nat, i: nat): seq<nat>
    requires i < |mult|
    decreases |mult| - i
  {
    if i == |mult| - 1 then Repeat(base * mult[i], r)
    else Repeat(base * mult[i], r) + [factor * (base * mult[i])] + LevelPushes(base, mult, r, factor, i + 1)
  }

  /** The whole push sequence: the input convolution's width, then every
      level's entries. */
  function Pushes(base: nat, mult: seq<nat>, r: nat, factor: nat): seq<nat>
  {
    if mult == [] then [base] else [base] + LevelPushes(base, mult, r, factor, 0)
  }

  lemma {:induction false} LevelPushesLength(base: nat, mult: seq<nat>, r: nat, factor: nat, i: nat)
    requires i < |mult|
    decreases |mult| - i
    ensures |LevelPushes(base, mult, r, factor, i)| == (|mult| - i) * (r + 1) - 1
  {
    if i < |mult| - 1 {
      LevelPushesLength(base, mult, r, factor, i + 1);
      SuccMul(|mult| - i - 1, r + 1);
    }
  }

  /** `1 + L*r + (L-1)` entries: the input convolution's, one per residual
      block, one per downsampler; that is `L*(r+1)`. */
  lemma PushesLength(base: nat, mult: seq<nat>, r: nat, factor: nat)
    requires |mult| > 0
    ensures |Pushes(base, mult, r, factor)| == 1 + |mult| * r + (|mult| - 1) == |mult| * (r + 1)
  {
    LevelPushesLength(base, mult, r, factor, 0);
  }

  /** With at least one residual block per level, the last entry pushed is
      the deepest level's width: the running width the middle block reads. */
  lemma {:induction false} LastPush(base: nat, mult: seq<nat>, r: nat, factor: nat, i: nat)
    requires r >= 1 && i < |mult|
    decreases |mult| - i
    ensures var p := LevelPushes(base, mult, r, factor, i);
      |p| > 0 && p[|p| - 1] == base * mult[|mult| - 1]
  {
    if i < |mult| - 1 {
      LastPush(base, mult, r, factor, i + 1);
    }
  }

  /** The output widths of the up path's residual blocks, levels `i..L-1`,
      deepest level first: `r+1` blocks of the level's width per level. */
  function UpOutsFrom(base: nat, mult: seq<nat>, r: nat, i: nat): seq<nat>
    requires i <= |mult|
    decreases |mult| - i
  {
    if i == |mult| then [] else UpOutsFrom(base, mult, r, i + 1) + Repeat(base * mult[i], r + 1)
  }

  function UpOuts(base: nat, mult: seq<nat>, r: nat): seq<nat>
  {
    UpOutsFrom(base, mult, r, 0)
  }

  lemma {:induction false} UpOutsFromLength(base: nat, mult: seq<nat>, r: nat, i: nat)
    requires i <= |mult|
    decreases |mult| - i
    ensures |UpOutsFrom(base, mult, r, i)| == (|mult| - i) * (r + 1)
  {
    if i < |mult| {
      UpOutsFromLength(base, mult, r, i + 1);
      SuccMul(|mult| - i - 1, r + 1);
    }
  }

  /** The up path's residual blocks number `L*(r+1)`; the last one writes
      the outermost level's width. */
  lemma UpOutsShape(base: nat, mult: seq<nat>, r: nat)
    ensures |UpOuts(base, mult, r)| == |mult| * (r + 1)
    ensures |mult| > 0 ==> UpOuts(base, mult, r)[|mult| * (r + 1) - 1] == base * mult[0]
  {
    UpOutsFromLength(base, mult, r, 0);
  }

  /** The skip width the last residual block of up level `i` consumes:
      the input convolution's width at the outermost level, otherwise what
      the downsampler of level `i-1` pushed. */
  function LevelEntryWidth(base: nat, mult: seq<nat>, factor: nat, i: nat): nat
    requires i < |mult|
  {
    if i == 0 then base else factor * (base * mult[i - 1])
  }

  /** The skip widths the up path consumes, written per level as the DDPM
      builder writes them (lines 611-615), deepest level first: `r` blocks
      take the level's own width, the last one takes the entry width. */
  function UpSkipsFrom(base: nat, mult: seq<nat>, r: nat, factor: nat, i: nat): seq<nat>
    requires i <= |mult|
    decreases |mult| - i
  {
    if i == |mult| then []
    else UpSkipsFrom(base, mult, r, factor, i + 1) + Repeat(base * mult[i], r) + [LevelEntryWidth(base, mult, factor, i)]
  }

  function UpSkips(base: nat, mult: seq<nat>, r: nat, factor: nat): seq<nat>
  {
    UpSkipsFrom(base, mult, r, factor, 0)
  }

  /** The position of the `t`-th up block (`t <= r`) of down level `lv`:
      the up path visits the levels deepest first, `r + 1` blocks each. */
  function UpIndex(levels: nat, r: nat, lv: nat, t: nat): nat
    requires lv < levels
  {
    (levels - 1 - lv) * (r + 1) + t
  }

  lemma {:induction false} UpSkipsFromLength(base: nat, mult: seq<nat>, r: nat, factor: nat, i: nat)
    requires i <= |mult|
    decreases |mult| - i
    ensures |UpSkipsFrom(base, mult, r, factor, i)| == (|mult| - i) * (r + 1)
  {
    if i < |mult| {
      UpSkipsFromLength(base, mult, r, factor, i + 1);
      SuccMul(|mult| - i - 1, r + 1);
    }
  }

  /** The skip width the `t`-th up block of down level `lv` reads: the
      level's own width for the first `r`, the entry width for the last. */
  lemma {:induction false} UpSkipsFromAt(base: nat, mult: seq<nat>, r: nat, factor: nat, i: nat, lv: nat, t: nat)
    requires i <= lv < |mult| && t <= r
    decreases |mult| - i
    ensures UpIndex(|mult|, r, lv, t) < |UpSkipsFrom(base, mult, r, factor, i)|
    ensures UpSkipsFrom(base, mult, r, factor, i)[UpIndex(|mult|, r, lv, t)]
         == if t < r then base * mult[lv] else LevelEntryWidth(base, mult, factor, lv)
  {
    var k := UpIndex(|mult|, r, lv, t);
    var below := UpSkipsFrom(base, mult, r, factor, i + 1);
    var level := Repeat(base * mult[i], r) + [LevelEntryWidth(base, mult, factor, i)];
    assert |below| == (|mult| - 1 - i) * (r + 1) by {
      UpSkipsFromLength(base, mult, r, factor, i + 1);
    }
    assert UpSkipsFrom(base, mult, r, factor, i) == below + level;
    if lv == i {
      assert k == |below| + t;
      assert (below + level)[k] == level[t];
    } else {
      assert k < |below| by {
        MulLe(|mult| - 1 - lv + 1, |mult| - 1 - i, r + 1);
        SuccMul(|mult| - 1 - lv, r + 1);
      }
      assert below[k] == if t < r then base * mult[lv] else LevelEntryWidth(base, mult, factor, lv) by {
        UpSkipsFromAt(base, mult, r, factor, i + 1, lv, t);
      }
      assert (below + level)[k] == below[k];
    }
  }

  /** Levels `i..L-1` pushed in reverse, followed by the entry width of
      level `i`, are the skips up levels `L-1..i` consume. */
  lemma {:induction false} MirrorFrom(base: nat, mult: seq<nat>, r: nat, factor: nat, i: nat)
    requires i < |mult|
    decreases |mult| - i
    ensures Reverse(LevelPushes(base, mult, r, factor, i)) + [LevelEntryWidth(base, mult, factor, i)]
         == UpSkipsFrom(base, mult, r, factor, i)
  {
    if i == |mult| - 1 {
      MirrorDeepest(base, mult, r, factor);
    } else {
      MirrorFrom(base, mult, r, factor, i + 1);
      MirrorStep(base, mult, r, factor, i);
    }
  }

  /** The deepest level pushes no downsampler entry. */
  lemma MirrorDeepest(base: nat, mult: seq<nat>, r: nat, factor: nat)
    requires |mult| > 0
    ensures Reverse(LevelPushes(base, mult, r, factor, |mult| - 1)) + [LevelEntryWidth(base, mult, factor, |mult| - 1)]
            == UpSkipsFrom(base, mult, r, factor, |mult| - 1)
  {
    var i := |mult| - 1;
    var w := base * mult[i];
    assert LevelPushes(base, mult, r, factor, i) == Repeat(w, r);
    assert UpSkipsFrom(base, mult, r, factor, i + 1) == [];
    EmptyThenRepeat(w, r, LevelEntryWidth(base, mult, factor, i));
  }

  lemma EmptyThenRepeat(w: nat, r: nat, e: nat)
    ensures Reverse(Repeat(w, r)) + [e] == [] + Repeat(w, r) + [e]
  {
    ReverseRepeat(w, r);
  }

  /** A shallower level: its pushes end with the downsampler entry that
      the next level reads as its entry width. */
  lemma MirrorStep(base: nat, mult: seq<nat>, r: nat, factor: nat, i: nat)
    requires i < |mult| - 1
    requires Reverse(LevelPushes(base, mult, r, factor, i + 1)) + [LevelEntryWidth(base, mult, factor, i + 1)]
          == UpSkipsFrom(base, mult, r, factor, i + 1)
    ensures Reverse(LevelPushes(base, mult, r, factor, i)) + [LevelEntryWidth(base, mult, factor, i)]
         == UpSkipsFrom(base, mult, r, factor, i)
  {
    var w := base * mult[i];
    MirrorLevel(w, factor * w, r, LevelPushes(base, mult, r, factor, i + 1), UpSkipsFrom(base, mult, r, factor, i + 1),
                LevelEntryWidth(base, mult, factor, i),
                LevelPushes(base, mult, r, factor, i), UpSkipsFrom(base, mult, r, factor, i));
  }

  /** One level of `MirrorFrom`, as a fact about sequences alone. */
  lemma MirrorLevel(w: nat, down: nat, r: nat, tail: seq<nat>, below: seq<nat>, entry: nat,
                    pushed: seq<nat>, skips: seq<nat>)
    requires Reverse(tail) + [down] == below
    requires pushed == Repeat(w, r) + [down] + tail
    requires skips == below + Repeat(w, r) + [entry]
    ensures Reverse(pushed) + [entry] == skips
  {
    var level := Repeat(w, r);
    ReverseAppend(level + [down], tail);
    ReverseAppend(level, [down]);
    ReverseRepeat(w, r);
    assert Reverse([down]) == [down];
    assert Reverse(pushed) == Reverse(tail) + ([down] + level);
    assert Reverse(tail) + ([down] + level) == (Reverse(tail) + [down]) + level;
  }

  /** The stack discipline: popping every push yields exactly the per-level
      skip widths, so the up path's concatenations see the widths the down
      path recorded. */
  lemma PushesMirror(base: nat, mult: seq<nat>, r: nat, factor: nat)
    requires |mult| > 0
    ensures Reverse(Pushes(base, mult, r, factor)) == UpSkips(base, mult, r, factor)
    ensures |UpSkips(base, mult, r, factor)| == |UpOuts(base, mult, r)|
  {
    PushesLength(base, mult, r, factor);
    UpOutsShape(base, mult, r);
    MirrorFrom(base, mult, r, factor, 0);
    ReverseAppend([base], LevelPushes(base, mult, r, factor, 0));
  }

  /** Doubling every downsampler's pushed width changes the up path's
      blocks only at the last block of each level but the outermost: that
      block reads `base * mult[lv-1]` more; every other block, and every
      output width, stays the same. */
  lemma DoubledEntries(base: nat, mult: seq<nat>, r: nat, inCh: nat, lv: nat, t: nat)
    requires lv < |mult| && t <= r
    ensures |UpSkips(base, mult, r, 1)| == |UpSkips(base, mult, r, 2)| == |UpOuts(base, mult, r)|
    ensures UpIndex(|mult|, r, lv, t) < |UpOuts(base, mult, r)|
    ensures ChainBlocks(inCh, UpSkips(base, mult, r, 2), UpOuts(base, mult, r))[UpIndex(|mult|, r, lv, t)].outChannels
         == ChainBlocks(inCh, UpSkips(base, mult, r, 1), UpOuts(base, mult, r))[UpIndex(|mult|, r, lv, t)].outChannels
    ensures ChainBlocks(inCh, UpSkips(base, mult, r, 2), UpOuts(base, mult, r))[UpIndex(|mult|, r, lv, t)].inChannels
         == ChainBlocks(inCh, UpSkips(base, mult, r, 1), UpOuts(base, mult, r))[UpIndex(|mult|, r, lv, t)].inChannels
            + (if t == r && lv > 0 then base * mult[lv - 1] else 0)
  {
    UpSkipsFromLength(base, mult, r, 1, 0);
    UpSkipsFromLength(base, mult, r, 2, 0);
    UpOutsFromLength(base, mult, r, 0);
    UpSkipsFromAt(base, mult, r, 1, 0, lv, t);
    UpSkipsFromAt(base, mult, r, 2, 0, lv, t);
  }

  /** Reading the popped widths per level instead of off the stack builds
      the same up-path blocks. */
  lemma ChainBlocksMirror(base: nat, mult: seq<nat>, r: nat, factor: nat, inCh: nat)
    requires |mult| > 0
    ensures && |Pushes(base, mult, r, factor)| == |UpOuts(base, mult, r)| == |UpSkips(base, mult, r, factor)|
            && ChainBlocks(inCh, Reverse(Pushes(base, mult, r, factor)), UpOuts(base, mult, r))
               == ChainBlocks(inCh, UpSkips(base, mult, r, factor), UpOuts(base, mult, r))
  {
    PushesLength(base, mult, r, factor);
    PushesMirror(base, mult, r, factor);
  }

  /** Residual blocks chained along the up path: block `k` reads the running
      width (`inCh` first, then the previous block's output) plus the skip
      width `skips[k]`, and writes `outs[k]`. */
  function ChainBlocks(inCh: nat, skips: seq<nat>, outs: seq<nat>): (r: seq<ResIO>)
    requires |skips| == |outs|
    decreases |outs|
    ensures |r| == |outs|
    ensures forall k :: 0 <= k < |outs| ==> r[k].outChannels == outs[k]
    ensures forall k :: 0 <= k < |outs| ==>
      r[k].inChannels == (if k == 0 then inCh else outs[k - 1]) + skips[k]
  {
    if outs == [] then []
    else [ResIO(inCh + skips[0], outs[0])] + ChainBlocks(outs[0], skips[1..], outs[1..])
  }

  /** Popping the top entry first, then `n-1` more, leaves what popping `n`
      at once leaves and sees the same entries. */
  lemma TopSplit(hs: seq<nat>, n: nat)
    requires 0 < n <= |hs|
    ensures hs[..|hs| - 1][..|hs| - n] == hs[..|hs| - n]
    ensures Reverse(hs[|hs| - n..]) == [hs[|hs| - 1]] + Reverse(hs[..|hs| - 1][|hs| - n..])
  {
    assert hs[|hs| - n..] == hs[..|hs| - 1][|hs| - n..] + [hs[|hs| - 1]];
    ReverseAppend(hs[..|hs| - 1][|hs| - n..], [hs[|hs| - 1]]);
  }

  /** The first block of a chain reads the running width plus the first skip. */
  lemma ChainBlocksCons(inCh: nat, top: nat, skips: seq<nat>, outs: seq<nat>)
    requires |outs| == |skips| + 1
    ensures ChainBlocks(inCh, [top] + skips, outs) == [ResIO(inCh + top, outs[0])] + ChainBlocks(outs[0], skips, outs[1..])
  {
    assert ([top] + skips)[1..] == skips;
  }

  /** What the up path's pops produce. */
  datatype Popped = Popped(blocks: seq<ResIO>, widths: seq<nat>, rest: seq<nat>)

  /** The up path's residual blocks (lines 1003-1018 and 780-794): for each
      block, `hs.pop()` takes the top width, the block reads the running width
      plus that width and writes its output width, which becomes the running
      width. `pop()` on an empty list raises. */
  function PopChain(inCh: nat, hs: seq<nat>, outs: seq<nat>): (r: Result<Popped>)
    decreases |outs|
    ensures r.Ok? <==> |outs| <= |hs|
    ensures r.Err? ==> r.error == IndexError
  {
    if outs == [] then Ok(Popped([], [], hs))
    else if hs == [] then Err(IndexError)
    else
      var top := hs[|hs| - 1];
      var block := ResIO(inCh + top, outs[0]);
      var next :- PopChain(outs[0], hs[..|hs| - 1], outs[1..]);
      Ok(Popped([block] + next.blocks, [top] + next.widths, next.rest))
  }

  /** Popping `|outs|` widths leaves the bottom of the stack, sees the top
      `|outs|` entries from the top down, and chains the blocks through them. */
  lemma PopChainPops(inCh: nat, hs: seq<nat>, outs: seq<nat>)
    requires |outs| <= |hs|
    ensures PopChain(inCh, hs, outs).Ok?
    ensures var p := PopChain(inCh, hs, outs).value;
      && p.rest == hs[..|hs| - |outs|]
      && p.widths == Reverse(hs[|hs| - |outs|..])
      && |p.widths| == |outs|
      && p.blocks == ChainBlocks(inCh, p.widths, outs)
  {
    PopChainWidths(inCh, hs, outs);
    PopChainBlocks(inCh, hs, outs);
  }

  /** What the pops leave and what they see. */
  lemma {:induction false} PopChainWidths(inCh: nat, hs: seq<nat>, outs: seq<nat>)
    requires |outs| <= |hs|
    decreases |outs|
    ensures PopChain(inCh, hs, outs).Ok?
    ensures var p := PopChain(inCh, hs, outs).value;
      && p.rest == hs[..|hs| - |outs|]
      && p.widths == Reverse(hs[|hs| - |outs|..])
  {
    if outs == [] {
      assert hs[|hs|..] == [];
    } else {
      PopChainWidths(outs[0], hs[..|hs| - 1], outs[1..]);
      TopSplit(hs, |outs|);
    }
  }

  /** The blocks the pops build are the chain through the popped widths. */
  lemma {:induction false} PopChainBlocks(inCh: nat, hs: seq<nat>, outs: seq<nat>)
    requires |outs| <= |hs|
    decreases |outs|
    ensures PopChain(inCh, hs, outs).Ok?
    ensures var p := PopChain(inCh, hs, outs).value;
      && |p.widths| == |outs|
      && p.blocks == ChainBlocks(inCh, p.widths, outs)
  {
    if outs != [] {
      PopChainBlocks(outs[0], hs[..|hs| - 1], outs[1..]);
      var next := PopChain(outs[0], hs[..|hs| - 1], outs[1..]).value;
      ChainBlocksCons(inCh, hs[|hs| - 1], next.widths, outs);
    }
  }

  /** The push and pop counts balance for every width schedule: the input
      convolution, `L*r` residual blocks and `L-1` downsamplers push, the
      `L*(r+1)` up residual blocks pop, and popping them all from any
      running width leaves the stack empty without an underflow. */
  lemma PushPopBalance(base: nat, mult: seq<nat>, r: nat, factor: nat, inCh: nat)
    requires |mult| > 0
    ensures var p := Pushes(base, mult, r, factor); var o := UpOuts(base, mult, r);
      && |p| == 1 + |mult| * r + (|mult| - 1) == |mult| * (r + 1) == |o|
      && PopChain(inCh, p, o).Ok?
      && PopChain(inCh, p, o).value.rest == []
  {
    PushesLength(base, mult, r, factor);
    UpOutsShape(base, mult, r);
    PopChainDrains(inCh, Pushes(base, mult, r, factor), UpOuts(base, mult, r));
  }

  /** Popping exactly as many widths as were pushed empties the stack and
      yields the pushes in reverse. */
  lemma PopChainDrains(inCh: nat, hs: seq<nat>, outs: seq<nat>)
    requires |outs| == |hs|
    ensures PopChain(inCh, hs, outs).Ok?
    ensures PopChain(inCh, hs, outs).value.rest == []
    ensures PopChain(inCh, hs, outs).value.widths == Reverse(hs)
    ensures PopChain(inCh, hs, outs).value.blocks == ChainBlocks(inCh, Reverse(hs), outs)
  {
    PopChainPops(inCh, hs, outs);
    assert hs[|hs| - |outs|..] == hs;
  }
}

=== FILE: timesteps.dfy ===
/** Timestep normalisation at the start of `UNetUnconditionalModel.forward`
    (unet_unconditional.py, lines 379-383): whatever the caller passes as the
    timestep becomes a tensor with at least one dimension, aligned to a batch.
    Tensors are abstracted to their shape, their flat contents and their
    element type; the device transfer is not modelled. */
module Timesteps {
  import opened Errors

  /** torch's element types that matter here. */
  datatype Dtype = Long | Floating

  /** A tensor: its shape, its elements in row-major order, its element type. */
  datatype Tensor = Tensor(shape: seq<nat>, data: seq<real>, dtype: Dtype)

  /** What the caller may pass as `timestep`: a Python int, a Python float
      or a torch tensor. */
  datatype TimestepArg = PyInt(i: int) | PyFloat(x: real) | TensorArg(t: Tensor)

  /** The range of torch.long (64-bit signed). */
  const LongMin: int := -0x8000_0000_0000_0000
  const LongMax: int := 0x7FFF_FFFF_FFFF_FFFF

  /** The number of elements a tensor of this shape holds. */
  function Product(shape: seq<nat>): nat
  {
    if shape == [] then 1 else shape[0] * Product(shape[1..])
  }

  /** A tensor whose contents fill its shape exactly. */
  predicate WellFormed(t: Tensor)
  {
    |t.data| == Product(t.shape)
  }

  /** Conversion of a float to torch.long: truncation toward zero. */
  function TruncateTowardZero(x: real): (r: int)
    ensures 0.0 <= x ==> 0 <= r && r as real <= x < r as real + 1.0
    ensures x < 0.0 ==> r <= 0 && r as real - 1.0 < x <= r as real
  {
    if 0.0 <= x then x.Floor else -((-x).Floor)
  }

  /** The normalised timesteps: a scalar becomes a one-element long tensor
      (`torch.tensor([t], dtype=torch.long)`), a 0-dim tensor gains a leading
      dimension of size one (`t[None]`), any other tensor passes through. */
  function Normalize(arg: TimestepArg): (r: Result<Tensor>)
    ensures arg.PyInt? ==> (r.Ok? <==> LongMin <= arg.i <= LongMax)
    ensures arg.PyInt? && r.Ok? ==> r.value == Tensor([1], [arg.i as real], Long)
    ensures arg.PyFloat? ==>
      && r.Ok? && r.value.shape == [1] && r.value.dtype == Long && |r.value.data| == 1
      && r.value.data[0] == r.value.data[0].Floor as real
      && -1.0 < r.value.data[0] - arg.x < 1.0
      && (0.0 <= arg.x ==> 0.0 <= r.value.data[0] <= arg.x)
      && (arg.x < 0.0 ==> arg.x <= r.value.data[0] <= 0.0)
    ensures arg.TensorArg? && arg.t.shape == [] ==> r == Ok(arg.t.(shape := [1]))
    ensures arg.TensorArg? && arg.t.shape != [] ==> r == Ok(arg.t)
  {
    match arg
    case PyInt(i) =>
      if LongMin <= i <= LongMax then Ok(Tensor([1], [i as real], Long)) else Err(LongRangeError)
    case PyFloat(x) =>
      Ok(Tensor([1], [TruncateTowardZero(x) as real], Long))
    case TensorArg(t) =>
      if |t.shape| == 0 then Ok(t.(shape := [1])) else Ok(t)
  }

  /** Every normalised timestep tensor has a batch dimension, and a
      well-formed input stays well formed; a scalar or 0-dim input becomes a
      batch of exactly one. */
  lemma NormalizeGivesBatch(arg: TimestepArg)
    requires arg.TensorArg? ==> WellFormed(arg.t)
    requires Normalize(arg).Ok?
    ensures |Normalize(arg).value.shape| >= 1
    ensures WellFormed(Normalize(arg).value)
    ensures !arg.TensorArg? || arg.t.shape == [] ==>
      Normalize(arg).value.shape == [1] && |Normalize(arg).value.data| == 1
  {
    assert Product([1]) == 1 * Product([]);
  }

  /** Normalising an already normalised timestep changes nothing. */
  lemma NormalizeIdempotent(arg: TimestepArg)
    requires Normalize(arg).Ok?
    ensures Normalize(TensorArg(Normalize(arg).value)) == Normalize(arg)
  {
  }
}
